=== FILE: README.md ===
# connections-plus: the decision logic of a word-grouping puzzle, in Dafny

connections-plus is a browser clone of a daily word-connection puzzle. The
player drags sixteen word cards around a board, colours them to mark
tentative groups of four, and submits the grouping to a Flask server. The
server checks it against the answer key. Most of the repository is DOM,
React and Flask plumbing. This project models the pure decision logic
beneath that plumbing, as immutable datatypes and pure transitions:

- **Server utilities** (`app/utils.py`), module `PuzzleUtils`:
  - lookup of a puzzle by date, including the special `"latest"` date;
  - the newest-first listing;
  - the display record with shuffled words;
  - the deterministic branch of hint generation;
  - the answer check.

  Loading the data file becomes a `puzzles` parameter. The random
  generator becomes parameters holding the values it would draw.
- **Component view-model** (`src/components/GameBoard.tsx`), module
  `GameBoard`. The state is cards, the ordered selection (at most four),
  completed groups, the colour last applied and the loaded puzzle. Every
  handler is a function from one state to the next.
- **Imperative client** (`app/static/js/main.js`), split into three modules:
  - `DragGeometry`: the drag clamp and the drop-zone hit test;
  - `ClientBoard`: cards with their colour classes, the colour-dot rule and
    the local submission gate;
  - `Persistence`: local storage as a key→entry map, with save and load.

Shared pieces:
- `Common`: `Option`, `Result`, the four-colour palette.
- `Decimal`: rendering a natural number as text, used for the `card-<i>`
  ids and puzzle titles.
- `StringOrder`: Python's lexicographic `str` order, which the date sort
  uses. Dafny's own `<` on sequences is the prefix relation.
- `Seqs`: sequences without repeats.

A DOM card's colour is the **set** of palette classes on its element, not
a single optional colour. With a set, the model can prove that the
handlers never leave two colours on a card. It also gives meaning to the
yellow→green→blue→purple priority that saving applies.

Three points where the code does less than a reader might expect:
- The instructions shown on the page (`app/static/js/main.js:463`) tell
  the player to right-click or long-press a card to cycle through the
  colours. No handler implements that cycle; colours change only through
  the colour dots, which the model covers.
- The local group validator does not partition the cards. It counts the
  cards carrying each colour class. Uncoloured cards are allowed. A card
  with two classes would count twice, and the model proves no handler
  creates one.
- Only the mouse drag path clamps the card into the board. The HTML5 drop
  path (`app/static/js/main.js:211-218`) does not clamp. Only the mouse
  path is modelled.

## Model

| member | source | states |
|---|---|---|
| PuzzleUtils.FindByDate | app/utils.py:29-34 | `None` exactly when no puzzle has the date; otherwise a puzzle with that date, and no earlier puzzle has it |
| PuzzleUtils.GetPuzzleByDate | app/utils.py:19-34 | `"latest"` on an empty list raises `IndexError`; otherwise it returns a loaded puzzle whose date is ≥ every puzzle's date (Python string order); any other date is a first-match lookup |
| PuzzleUtils.LatestIsFirstNewest | app/utils.py:24-27 | the sort is stable, so `"latest"` returns the first puzzle in file order among those with the greatest date |
| PuzzleUtils.SortNewestFirst | app/utils.py:26 | the stable reverse sort returns a permutation of its input with dates non-increasing, and the puzzles of each date keep their original relative order |
| PuzzleUtils.InsertKeepsDateOrder | app/utils.py:26 | one insertion step places the new puzzle ahead of every puzzle of its own date and reorders no puzzles of the same date |
| PuzzleUtils.GetAllPuzzles | app/utils.py:37-41 | the result is a permutation of the loaded puzzles, ordered newest first, with puzzles of the same date in file order |
| PuzzleUtils.AllMembers | app/utils.py:47-49 | a word is in the flattened list exactly when it is a member of some answer |
| PuzzleUtils.Shuffle | app/utils.py:52 | the Fisher-Yates walk returns a permutation of its input, whatever values are drawn |
| PuzzleUtils.FormatPuzzleForDisplay | app/utils.py:44-60 | the words are a permutation of all answer members; id, date and answers are copied; the title is `Connections Puzzle #<id>` |
| PuzzleUtils.GenerateHint | app/utils.py:63-111 | an unknown level gets the fixed reply, and only an unknown level does; a known level raises `IndexError` exactly when its random choice or word reference meets an empty list; otherwise the hint is about one of the puzzle's answers |
| PuzzleUtils.CheckSubmission | app/utils.py:114-129 | the check as deployed: a submission with fewer groups than there are answers is refused, and a puzzle without answers accepts anything; the `Check*` lemmas below carry the rest of its meaning |
| PuzzleUtils.CheckIgnoresGroupOrder | app/utils.py:120-126 | any permutation of the submitted groups gets the same verdict |
| PuzzleUtils.CheckIgnoresWordOrder | app/utils.py:117-120 | groups with the same word sets get the same verdict, whatever the word order |
| PuzzleUtils.CheckIgnoresEmptyGroups | app/utils.py:120 | an empty group inserted anywhere does not change the verdict |
| PuzzleUtils.CheckIgnoresWrongGroups | app/utils.py:122-129 | a group that is no answer neither helps nor blocks success |
| PuzzleUtils.CheckAcceptsAnswers | app/utils.py:114-129 | any permutation of the answer groups is accepted when no answer group is empty |
| PuzzleUtils.CheckCountsRepeats | app/utils.py:122-129 | repeats of one correct group each count, so one answer submitted once per answer group is accepted |
| PuzzleUtils.CheckRejectsEmptySubmission | app/utils.py:114-129 | an empty submission is refused whenever the puzzle has an answer group |
| PuzzleUtils.CheckSoundForFullSubmission | app/utils.py:122-129 | with one submitted group per answer group, acceptance means every group is non-empty and equals some answer group as a set |
| PuzzleUtils.CheckSubmissionCorrected | app/utils.py:114-129 | the intended check: accept exactly when every non-empty submitted group is an answer and every answer is submitted |
| PuzzleUtils.RepeatedGroupFoolsCheck | app/utils.py:122-129 | the check as written accepts one correct group repeated once per answer group; the corrected check refuses it |
| PuzzleUtils.ExtraGroupsFoolCheck | app/utils.py:122-129 | the check as written accepts all answers plus a wrong group; the corrected check refuses it |
| PuzzleUtils.CheckAgreesOnDistinctGroups | app/utils.py:114-129 | the two checks agree on one non-empty group per answer, no two alike, when the answers differ pairwise |
| GameBoard.LoadPuzzle | src/components/GameBoard.tsx:73-92 | the fetched puzzle becomes current and its cards are exactly the initial layout; there is one uncoloured card per flattened word, in order; selection, completed groups and colour are kept |
| GameBoard.FlatWords | src/components/GameBoard.tsx:79 | a word is in the flattened list exactly when some group has it |
| GameBoard.InitialCards | src/components/GameBoard.tsx:79-90 | one uncoloured card per word of the flattened groups, in order, and every card's text is a word of some group; card i has id `card-<i>` and sits at x = 50 + (i mod 4)·170, y = 50 + ⌊i/4⌋·80 |
| GameBoard.InitialIdsDistinct | src/components/GameBoard.tsx:79-90 | laid-out cards have pairwise distinct `card-<i>` ids |
| GameBoard.InitialPositionsDistinct | src/components/GameBoard.tsx:79-90 | laid-out cards have pairwise distinct positions |
| GameBoard.InitialLayoutGrid | src/components/GameBoard.tsx:81-87 | every laid-out card has x in {50, 220, 390, 560} and y equal to 50 plus a multiple of 80 |
| Decimal.PrefixedInjective | src/components/GameBoard.tsx:84 | `prefix + ${m}` equals `prefix + ${n}` exactly when m = n |
| GameBoard.MoveCard | src/components/GameBoard.tsx:113-117 | only cards with the id change, and only their x and y; length, order and all else are kept |
| GameBoard.MoveCardLastWins | src/components/GameBoard.tsx:113-117 | moving a card twice equals moving it once to the second place |
| GameBoard.MoveCardsCommute | src/components/GameBoard.tsx:113-117 | moves of different cards commute |
| GameBoard.Without | src/components/GameBoard.tsx:121 | the filter keeps exactly the other ids; with no repeats, it removes exactly one element when the id is present |
| GameBoard.HandleCardClick | src/components/GameBoard.tsx:119-127 | a selected id is removed; an unselected id is appended below four and ignored at four; the at-most-four, no-repeat invariant is preserved |
| GameBoard.ClickTwiceRestores | src/components/GameBoard.tsx:119-127 | selecting a card and clicking it again restores the state |
| GameBoard.ResetSelection | src/components/GameBoard.tsx:136-139 | selection empties and the current colour is cleared; nothing else changes |
| GameBoard.ApplyColorToSelected | src/components/GameBoard.tsx:129-134 | exactly the selected cards take the colour; other cards are untouched; the current colour becomes it |
| GameBoard.ApplyColorLastWins | src/components/GameBoard.tsx:129-134 | colouring the same selection twice equals colouring it once with the second colour |
| GameBoard.ApplyColorCommutesWithMove | src/components/GameBoard.tsx:113-134 | colouring and moving commute |
| GameBoard.FindCard | src/components/GameBoard.tsx:145 | returns the first card with the id, or `None` exactly when there is none |
| GameBoard.SelectedTexts | src/components/GameBoard.tsx:144-146 | every text is the non-empty text of the card some selected id finds; if none is dropped, the k-th text is the text of the card the k-th selected id finds |
| GameBoard.SelectedTextsComplete | src/components/GameBoard.tsx:144-146 | the non-empty text of every card a selected id finds is kept |
| GameBoard.SelectedTextsFull | src/components/GameBoard.tsx:144-146 | when every selected id finds a card with a non-empty text, nothing is dropped |
| GameBoard.FindGroup | src/components/GameBoard.tsx:149-152 | returns the first group of the puzzle that matches, or `None` exactly when none does |
| GameBoard.RemoveSelected | src/components/GameBoard.tsx:158 | a card is kept exactly when its id is not selected |
| GameBoard.CheckSelection | src/components/GameBoard.tsx:141-165 | a no-op unless four cards are selected and a puzzle is loaded; the puzzle is kept; a changed state has an empty selection |
| GameBoard.CheckSelectionOnMatch | src/components/GameBoard.tsx:154-159 | on a match the group is appended, exactly the cards with selected ids are removed, the selection empties and the colour stays |
| GameBoard.CheckSelectionOnMismatch | src/components/GameBoard.tsx:160-164 | on a mismatch no group matches, the cards are kept, the selection empties and the colour is cleared |
| GameBoard.MatchIsSetEquality | src/components/GameBoard.tsx:149-152 | when neither the texts nor the words repeat, the match rule holds exactly when their sets are equal |
| GameBoard.RemovePresentIds | src/components/GameBoard.tsx:158 | with distinct card ids, removing distinct selected ids that all name cards removes exactly one card per id |
| GameBoard.MatchRemovesFourCards | src/components/GameBoard.tsx:154-159 | with distinct card ids, a match on a four-word group removes exactly four cards |
| DragGeometry.Clamp | app/static/js/main.js:111-112 | the result is ≥ 0, ≤ the limit when the limit is ≥ 0, 0 when the limit is negative, and the input itself when it is in range |
| DragGeometry.DragPosition | app/static/js/main.js:101-116 | the position is ≥ 0; it fits inside the board when the card does; it is the raw pointer position whenever that is in range |
| DragGeometry.ClampIdempotent | app/static/js/main.js:111-112 | clamping twice equals clamping once |
| DragGeometry.ClampMonotone | app/static/js/main.js:111-112 | clamping keeps the order of two positions |
| DragGeometry.DropZoneAt | app/static/js/main.js:154-162 | the first zone whose closed rectangle holds the point, or `None` exactly when no zone does |
| DragGeometry.CornerHitsZone | app/static/js/main.js:157 | bounds are inclusive: a zone's bottom-right corner hits it or an earlier zone |
| ClientBoard.FirstColor | app/static/js/main.js:381-387 | the first palette colour the card carries, in yellow, green, blue, purple order; `None` exactly when it carries none |
| ClientBoard.ClickColorDot | app/static/js/main.js:244-268 | at most one colour remains; the none-dot clears; a colour dot clears exactly when it is the card's first colour and otherwise leaves exactly that colour |
| ClientBoard.ClickColorDotTwice | app/static/js/main.js:244-268 | clicking a dot twice leaves the card uncoloured, unless the dot's colour was the card's first colour, in which case exactly that colour remains |
| ClientBoard.ClickDotOnCard | app/static/js/main.js:244-271 | the clicked card's colours become what the dot rule gives; nothing else on that card or any other changes; no card gains a second colour |
| ClientBoard.ColorGroup | app/static/js/main.js:667-670 | a text is in a colour's group exactly when some card with that colour has it, and the group has one text per card carrying the colour |
| ClientBoard.PrepareSubmission | app/static/js/main.js:665-681 | a submission is built exactly when each colour has four cards (3/5/4/4 is refused), and it is the groups in the order yellow, green, blue, purple |
| ClientBoard.GroupsPartitionCards | app/static/js/main.js:667-673 | with at most one colour per card, the four groups and the uncoloured cards add up to the number of cards |
| ClientBoard.AcceptedSixteenAreAllColored | app/static/js/main.js:672-678 | on sixteen single-colour cards, an accepted submission means every card is coloured |
| ClientBoard.AcceptedCorrectGroupsPassServer | app/utils.py:114-129 | four accepted groups that are each an answer of a four-answer puzzle pass the server's check |
| Persistence.StateKey | app/static/js/main.js:296 | the key is the prefix `puzzleState_` followed by the date |
| Persistence.StateKeyInjective | app/static/js/main.js:393 | distinct puzzle dates never share a storage key |
| Persistence.CardRecord | app/static/js/main.js:370-387 | the record keeps the id, text and both style strings, and takes the first palette colour or null |
| Persistence.Snapshot | app/static/js/main.js:364-390 | there is one record per card, in card order, under the board's date |
| Persistence.SaveCurrentState | app/static/js/main.js:362-394 | the snapshot is stored under this puzzle's key, and every other key is unchanged |
| Persistence.IndexOfId | app/static/js/main.js:310-311 | returns the first card with the id; `None` exactly when the id is empty or no card has it |
| Persistence.ApplyToCard | app/static/js/main.js:313-345 | id and text are kept; the position is taken only when both parts are non-empty; a stored colour replaces all others; a null colour keeps them |
| Persistence.ApplyRecord | app/static/js/main.js:309-346 | an unknown id leaves the board unchanged; otherwise only that card changes |
| Persistence.ApplyRecords | app/static/js/main.js:309-346 | ids, texts, length and the one-colour invariant are preserved |
| Persistence.LoadSavedState | app/static/js/main.js:291-359 | loads exactly when an entry under the key parses and carries the board's date; otherwise the board is untouched; a load applies every record |
| Persistence.TextMismatchStillApplies | app/static/js/main.js:313-317 | a record's text does not affect what it applies |
| Persistence.RestoredCard | app/static/js/main.js:309-346 | a card whose id is not among the saved records keeps everything; one whose id is keeps its id and text and takes that record's position and colour |
| Persistence.RestoreById | app/static/js/main.js:291-394 | saving one board and loading onto a page with the same date and distinct ids, in any order, restores each page card from the saved card with the same id; cards are matched by id, not by place |
| Persistence.FoundAtOwnPlace | app/static/js/main.js:310 | without repeated ids, looking up a card's own id finds that card |
| Persistence.RecordStep | app/static/js/main.js:309-346 | applying one saved card's record restores exactly the page card with its id and no other |
| Persistence.SaveThenLoadIsIdentity | app/static/js/main.js:291-394 | with distinct ids and at most one colour per card, saving then loading changes nothing |
| Persistence.DotClickSaveLoadIsIdentity | app/static/js/main.js:244-272 | saving right after a colour-dot click and loading onto the same board changes nothing |
| Persistence.ReloadShowsSavedBoard | app/static/js/main.js:291-394 | loading onto a newly rendered page (same date, distinct ids in any order, no colours) shows every page card whose id was saved with the saved card's position and colour, and leaves every other page card as rendered |
| Persistence.ReloadAfterDotClick | app/static/js/main.js:244-394 | after a colour-dot click, a reload shows the clicked card's colour as the click left it, wherever the new page puts that card |

## Left out

- DOM and React rendering, event listeners, `requestAnimationFrame`
  throttling, CSS classes other than the four colours, the active-dot
  marker, `Card.tsx`, `NotesPanel.tsx` and `App.tsx`. These are
  presentation.
- Elements other than word cards. `document.getElementById` searches the
  whole page; the model searches the word cards only, so an element
  elsewhere that shares a card's id is not modelled.
- Reparenting and reordering cards. On release a card is appended to a
  drop zone or to the end of the board (`main.js:124-132`), and on load
  each positioned card is appended to the end of the board
  (`main.js:324`). The drop-zone release also resets the position to
  `0`/`0`. The model keeps the cards as one sequence and never moves a card
  within it, and which element holds a card is not modelled. Restoring
  matches cards by id, so the restore lemmas hold for a page in any order.
  Document order only decides the order of saved records and the word order
  within a submitted group.
- The hint and submit requests and their responses, and
  `connectionsService.ts`. These are network calls.
- Flask routes, the app factory, the ORM, password hashing, configuration
  and the database script. These are wrappers or foreign-library code.
- Reading the puzzle file (`load_puzzles`). This is file I/O; its decoded
  contents are a parameter.
- `shuffleCards`, `getRandomPuzzle`, and the random choices inside
  `generate_hint`. These are randomness. The puzzle a random fetch returns
  is a parameter of `GameBoard.LoadPuzzle`. The draws of `random.shuffle`
  and the answer group a hint picks are parameters.
- `arrangeCardsInGrid` and the HTML5 `handleDrop` centring. Both use
  floating-point pixel arithmetic. Coordinates elsewhere are whole pixels.
- Notes: saving, loading and their keys. A note is a plain string under a
  key.
- JSON text: an entry either parses into a well-typed state record or
  does not.
- `loadPuzzle`'s failure branch, which only logs.
- The `groupId` field of a card, which nothing sets.
- `textContent.trim()`. A card's text is its trimmed text.
- PuzzleUtils.GenerateHint: the hint's wording is not modelled. The
  template choice, the lower-casing of the category and the word quoted
  are all random choices.
- Persistence.LoadSavedState: the note text loaded with the state is not
  modelled. A record that is malformed inside a parsed state is not
  modelled either. In the source it throws part-way through the loop and
  leaves earlier records applied.
- Persistence.ApplyToCard: a stored colour is one of the palette or null.
  The source would add any other stored string as a class.
- DragGeometry.DragPosition: pointer and board coordinates are integers,
  not floating-point pixels.

## Findings

| source | as written | input that shows it | evidently intended | confidence | as-written member | corrected member |
|---|---|---|---|---|---|---|
| app/utils.py:122-129 | counts every submitted group whose word set is an answer, repeats included, and accepts when the count equals the number of answers | answers A, B, C, D (pairwise different); submission [A, A, A, A] is accepted, and so is [A, B, C, D, W] for a wrong W | accept exactly when the submitted groups, as sets, are the answer groups | medium: the client never sends repeats, but the endpoint accepts any list; not executed | PuzzleUtils.RepeatedGroupFoolsCheck | PuzzleUtils.CheckSubmissionCorrected |

`PuzzleUtils.CheckSubmission` models the check as deployed. The lemmas in
the table above state the properties it has as written.
`PuzzleUtils.CheckAgreesOnDistinctGroups` shows that the two checks
give the same verdict on a submission of exactly one non-empty group per
answer group, with no two submitted groups equal as sets, for a puzzle
whose answer groups differ pairwise as sets. No lemma derives these
hypotheses from what the client's gate accepts. Two cards with the same
text can give two equal groups, and a puzzle need not have four answer
groups.

=== FILE: client_board.dfy ===
/** The imperative client's board as its handlers see it: word cards in
    document order, each carrying the colour classes on its element, its
    inline `left`/`top` style strings, its id and its trimmed text. This
    module holds the colour-dot rule and the local check that gates a
    submission. */
module ClientBoard {
  import opened Common
  import PuzzleUtils
  import opened Seqs

  /** A `.word-card` element. `colors` is the set of palette class names on
      it; `left`/`top` are the inline style values (`""` when unset). */
  datatype DomCard = DomCard(id: string, text: string, left: string, top: string, colors: set<Color>)

  /** The board: the puzzle date from its `data-date` attribute and its
      cards, in the order `querySelectorAll` returned them when the board was
      read. No operation here moves a card within that order. */
  datatype Board = Board(date: string, cards: seq<DomCard>)

  /** A colour dot: one per palette colour, plus the clearing dot. */
  datatype Dot = ColorDot(color: Color) | NoneDot

  /** No card carries two colour classes. */
  predicate SingleColored(cards: seq<DomCard>)
  {
    forall i :: 0 <= i < |cards| ==> |cards[i].colors| <= 1
  }

  /** The first palette colour, in the order yellow, green, blue, purple,
      whose class the card carries. */
  function FirstColor(colors: set<Color>): (r: Option<Color>)
    ensures r.None? <==> colors == {}
    ensures r.Some? ==> r.value in colors
    ensures r.Some? ==> forall k :: 0 <= k < |Palette| && Palette[k] in colors ==> PaletteRank(r.value) <= k
  {
    if Yellow in colors then Some(Yellow)
    else if Green in colors then Some(Green)
    else if Blue in colors then Some(Blue)
    else if Purple in colors then Some(Purple)
    else
      forall c: Color
        ensures c !in colors
      {
        ColorCases(c);
      }
      None
  }

  lemma ColorCases(c: Color)
    ensures c == Yellow || c == Green || c == Blue || c == Purple
  {
  }

  function PaletteRank(c: Color): (k: nat)
    ensures k < |Palette| && Palette[k] == c
  {
    match c
    case Yellow => 0
    case Green => 1
    case Blue => 2
    case Purple => 3
  }

  /** For a card with at most one colour, the first colour is that colour. */
  lemma FirstColorOfSingle(colors: set<Color>)
    requires |colors| <= 1
    ensures FirstColor(colors).Some? ==> colors == {FirstColor(colors).value}
  {
    if FirstColor(colors).Some? {
      var c := FirstColor(colors).value;
      assert |colors - {c}| == |colors| - 1;
      assert colors - {c} == {};
      assert colors == (colors - {c}) + {c};
    }
  }

  /** The colour-dot click rule: the card's colours are cleared, and the
      dot's colour is put back unless it is the clearing dot or the colour
      the card showed first. */
  function ClickColorDot(colors: set<Color>, dot: Dot): (r: set<Color>)
    ensures |r| <= 1
    ensures dot == NoneDot ==> r == {}
    ensures dot.ColorDot? ==> (r == {} <==> FirstColor(colors) == Some(dot.color))
    ensures r != {} ==> dot.ColorDot? && r == {dot.color}
  {
    match dot
    case NoneDot => {}
    case ColorDot(c) => if FirstColor(colors) == Some(c) then {} else {c}
  }

  /** Clicking the same colour dot twice toggles: the card ends uncoloured
      unless that colour was the one it showed to begin with. */
  lemma ClickColorDotTwice(colors: set<Color>, c: Color)
    ensures ClickColorDot(ClickColorDot(colors, ColorDot(c)), ColorDot(c))
      == (if FirstColor(colors) == Some(c) then {c} else {})
  {
  }

  /** The dot handler applied to the card at `index`; other cards keep
      everything, this card keeps all but its colours. */
  function ClickDotOnCard(board: Board, index: nat, dot: Dot): (r: Board)
    requires index < |board.cards|
    ensures r.date == board.date && |r.cards| == |board.cards|
    ensures forall i :: 0 <= i < |board.cards| && i != index ==> r.cards[i] == board.cards[i]
    ensures r.cards[index] == board.cards[index].(colors := r.cards[index].colors)
    ensures r.cards[index].colors == ClickColorDot(board.cards[index].colors, dot)
    ensures SingleColored(board.cards) ==> SingleColored(r.cards)
  {
    var card := board.cards[index];
    board.(cards := board.cards[index := card.(colors := ClickColorDot(card.colors, dot))])
  }

  // ---------------------------------------------------------------------
  // Local submission check

  /** The trimmed texts of the cards carrying colour `c`, in document order
      (`querySelectorAll('.word-card.<c>')`). */
  function ColorGroup(cards: seq<DomCard>, c: Color): (texts: seq<string>)
    ensures |texts| <= |cards|
    ensures forall t :: t in texts <==> exists i :: 0 <= i < |cards| && c in cards[i].colors && cards[i].text == t
    ensures |texts| == |ColoredAt(cards, c)|
    decreases |cards|
  {
    if |cards| == 0 then
      assert ColoredAt(cards, c) == {};
      []
    else
      var rest := ColorGroup(cards[1..], c);
      assert forall i :: 1 <= i < |cards| ==> cards[i] == cards[1..][i - 1];
      ColoredAtCons(cards, c);
      if c in cards[0].colors then [cards[0].text] + rest else rest
  }

  /** The positions of the cards carrying colour `c`: one text per element
      of this set is what `querySelectorAll` collects. */
  function ColoredAt(cards: seq<DomCard>, c: Color): set<int>
  {
    set i | 0 <= i < |cards| && c in cards[i].colors
  }

  lemma ColoredAtCons(cards: seq<DomCard>, c: Color)
    requires |cards| > 0
    ensures |ColoredAt(cards, c)| == (if c in cards[0].colors then 1 else 0) + |ColoredAt(cards[1..], c)|
  {
    var tail := ColoredAt(cards[1..], c);
    var head: set<int> := if c in cards[0].colors then {0} else {};
    forall i | i in ColoredAt(cards, c)
      ensures i in head + Shift(tail)
    {
      if i > 0 {
        assert cards[1..][i - 1] == cards[i];
        assert i - 1 in tail;
      }
    }
    forall i | i in head + Shift(tail)
      ensures i in ColoredAt(cards, c)
    {
      if i > 0 {
        assert cards[1..][i - 1] == cards[i];
      }
    }
    assert ColoredAt(cards, c) == head + Shift(tail);
    assert 0 !in Shift(tail);
    ShiftSize(tail);
  }

  /** `prepareSubmission` up to the network call: the four colour groups in
      the fixed order yellow, green, blue, purple, or `None` (the alert, and
      no request) unless each has exactly four cards. */
  function PrepareSubmission(board: Board): (r: Option<seq<seq<string>>>)
    ensures r.Some? <==> forall c: Color :: |ColorGroup(board.cards, c)| == 4
    ensures r.Some? ==> r.value == [ColorGroup(board.cards, Yellow), ColorGroup(board.cards, Green),
                                     ColorGroup(board.cards, Blue), ColorGroup(board.cards, Purple)]
  {
    var groups := [ColorGroup(board.cards, Yellow), ColorGroup(board.cards, Green),
                   ColorGroup(board.cards, Blue), ColorGroup(board.cards, Purple)];
    if forall k :: 0 <= k < 4 ==> |groups[k]| == 4 then
      assert forall c: Color :: |ColorGroup(board.cards, c)| == 4 by {
        forall c: Color
          ensures |ColorGroup(board.cards, c)| == 4
        {
          assert groups[PaletteRank(c)] == ColorGroup(board.cards, c);
        }
      }
      Some(groups)
    else
      var k :| 0 <= k < 4 && |groups[k]| != 4;
      assert groups[k] == ColorGroup(board.cards, Palette[k]);
      None
  }

  /** The number of cards that carry no colour. */
  function Uncolored(cards: seq<DomCard>): nat
    decreases |cards|
  {
    if |cards| == 0 then 0
    else (if cards[0].colors == {} then 1 else 0) + Uncolored(cards[1..])
  }

  /** When no card carries two colours, the four colour groups and the
      uncoloured cards account for every card exactly once. */
  lemma {:induction false} GroupsPartitionCards(cards: seq<DomCard>)
    requires SingleColored(cards)
    ensures |ColorGroup(cards, Yellow)| + |ColorGroup(cards, Green)| + |ColorGroup(cards, Blue)|
            + |ColorGroup(cards, Purple)| + Uncolored(cards) == |cards|
    decreases |cards|
  {
    if |cards| > 0 {
      GroupsPartitionCards(cards[1..]);
      var s := cards[0].colors;
      if s != {} {
        FirstColorOfSingle(s);
      }
    }
  }

  /** On a sixteen-card board whose cards carry at most one colour each, an
      accepted submission means every card has been coloured. */
  lemma AcceptedSixteenAreAllColored(board: Board)
    requires |board.cards| == 16 && SingleColored(board.cards)
    requires PrepareSubmission(board).Some?
    ensures forall i :: 0 <= i < 16 ==> |board.cards[i].colors| == 1
  {
    GroupsPartitionCards(board.cards);
    assert Uncolored(board.cards) == 0;
    forall i | 0 <= i < 16
      ensures |board.cards[i].colors| == 1
    {
      NoUncolored(board.cards, i);
    }
  }

  lemma {:induction false} NoUncolored(cards: seq<DomCard>, i: nat)
    requires Uncolored(cards) == 0 && i < |cards|
    ensures cards[i].colors != {}
    decreases |cards|
  {
    if i > 0 {
      NoUncolored(cards[1..], i - 1);
    }
  }

  /** The four groups the client sends pass the server's check when each of
      them is, as a set of words, one of a four-group puzzle's answers. */
  lemma AcceptedCorrectGroupsPassServer(board: Board, puzzle: PuzzleUtils.Puzzle)
    requires PrepareSubmission(board).Some?
    requires |puzzle.answers| == 4
    requires forall k :: 0 <= k < 4 ==>
      PuzzleUtils.SetOf(PrepareSubmission(board).value[k]) in PuzzleUtils.AnswerSets(puzzle.answers)
    ensures PuzzleUtils.CheckSubmission(PrepareSubmission(board).value, puzzle)
  {
    var groups := PrepareSubmission(board).value;
    PuzzleUtils.AllMatch(groups, PuzzleUtils.AnswerSets(puzzle.answers));
  }
}

=== FILE: common.dfy ===
/** Types shared by the server utilities, the component view-model and the
    imperative client: optional values, results with an error, and the fixed
    four-colour palette of the game. */
module Common {

  /** A value that may be absent (`None` in Python, `null`/`undefined` in
      TypeScript and JavaScript). */
  datatype Option<+T> = None | Some(value: T)

  /** The outcome of an operation that can raise. */
  datatype Result<+T, +E> = Ok(value: T) | Err(error: E)

  /** The exceptions the modelled Python code can raise. */
  datatype PyError = IndexError

  /** The palette, in the fixed order yellow, green, blue, purple. */
  datatype Color = Yellow | Green | Blue | Purple

  /** The palette as an ordered list; every colour occurs exactly once. */
  const Palette: seq<Color> := [Yellow, Green, Blue, Purple]
}

=== FILE: decimal.dfy ===
/** Decimal rendering of natural numbers, as JavaScript template literals and
    Python f-strings render a non-negative integer: no sign, no leading zeros. */
module Decimal {

  function DigitChar(d: nat): (c: char)
    requires d < 10
    ensures '0' <= c <= '9'
    ensures DigitValue(c) == d
  {
    "0123456789"[d]
  }

  function DigitValue(c: char): nat
  {
    if '0' <= c <= '9' then (c - '0') as nat else 0
  }

  /** `${n}` for a non-negative integer `n`. */
  function NatToString(n: nat): (s: string)
    ensures |s| >= 1
    ensures forall k :: 0 <= k < |s| ==> '0' <= s[k] <= '9'
    ensures |s| > 1 ==> s[0] != '0'
    decreases n
  {
    if n < 10 then [DigitChar(n)]
    else NatToString(n / 10) + [DigitChar(n % 10)]
  }

  /** Reads back a string of decimal digits, most significant first. */
  function ParseDigits(s: string): nat
    decreases |s|
  {
    if |s| == 0 then 0
    else 10 * ParseDigits(s[..|s| - 1]) + DigitValue(s[|s| - 1])
  }

  /** Rendering is inverted by parsing, so it loses no information. */
  lemma {:induction false} ParseRendered(n: nat)
    ensures ParseDigits(NatToString(n)) == n
    decreases n
  {
    var s := NatToString(n);
    if n < 10 {
      assert s[..|s| - 1] == [];
    } else {
      ParseRendered(n / 10);
      assert s[..|s| - 1] == NatToString(n / 10);
    }
  }

  /** Distinct numbers render as distinct strings. */
  lemma RenderInjective(m: nat, n: nat)
    ensures NatToString(m) == NatToString(n) <==> m == n
  {
    if NatToString(m) == NatToString(n) {
      ParseRendered(m);
      ParseRendered(n);
    }
  }

  /** Distinct numbers behind a common prefix give distinct strings. */
  lemma PrefixedInjective(prefix: string, m: nat, n: nat)
    ensures prefix + NatToString(m) == prefix + NatToString(n) <==> m == n
  {
    if prefix + NatToString(m) == prefix + NatToString(n) {
      var a, b := prefix + NatToString(m), prefix + NatToString(n);
      assert a[|prefix|..] == NatToString(m);
      assert b[|prefix|..] == NatToString(n);
      RenderInjective(m, n);
    }
  }
}

=== FILE: drag_geometry.dfy ===
/** Pointer geometry of the imperative client's mouse dragging: where a
    dragged card lands on the board, and which drop zone a release point
    falls in. Coordinates are whole pixels. */
module DragGeometry {
  import opened Common

  /** A bounding rectangle as the browser reports it. */
  datatype Rect = Rect(left: int, top: int, right: int, bottom: int)
  {
    function Width(): int { right - left }
    function Height(): int { bottom - top }

    /** The closed rectangle: every bound is inclusive. */
    predicate Contains(x: int, y: int)
    {
      left <= x <= right && top <= y <= bottom
    }
  }

  datatype Point = Point(x: int, y: int)

  /** `Math.max(0, Math.min(v, limit))`. */
  function Clamp(v: int, limit: int): (r: int)
    ensures r >= 0
    ensures limit >= 0 ==> r <= limit
    ensures limit < 0 ==> r == 0
    ensures 0 <= v <= limit ==> r == v
    ensures r == 0 || r == v || r == limit
  {
    if v < limit then (if 0 < v then v else 0)
    else (if 0 < limit then limit else 0)
  }

  /** `updateElementPosition`: the pointer, less the board's origin and the
      point where the card was grabbed, kept inside the board. */
  function DragPosition(pointer: Point, board: Rect, grab: Point, cardWidth: int, cardHeight: int): (p: Point)
    ensures p.x >= 0 && p.y >= 0
    ensures board.Width() >= cardWidth ==> p.x <= board.Width() - cardWidth
    ensures board.Height() >= cardHeight ==> p.y <= board.Height() - cardHeight
    ensures var raw := Point(pointer.x - board.left - grab.x, pointer.y - board.top - grab.y);
      (0 <= raw.x <= board.Width() - cardWidth ==> p.x == raw.x)
      && (0 <= raw.y <= board.Height() - cardHeight ==> p.y == raw.y)
  {
    Point(Clamp(pointer.x - board.left - grab.x, board.Width() - cardWidth),
          Clamp(pointer.y - board.top - grab.y, board.Height() - cardHeight))
  }

  /** Clamping a position that is already clamped changes nothing. */
  lemma ClampIdempotent(v: int, limit: int)
    ensures Clamp(Clamp(v, limit), limit) == Clamp(v, limit)
  {
  }

  /** Clamping never reverses the order of two pointer positions. */
  lemma ClampMonotone(u: int, v: int, limit: int)
    requires u <= v
    ensures Clamp(u, limit) <= Clamp(v, limit)
  {
  }

  /** `getDropZoneAtPosition`: the index of the first zone whose closed
      rectangle holds the point, or `None` (JavaScript `null`). */
  function DropZoneAt(zones: seq<Rect>, x: int, y: int): (r: Option<nat>)
    ensures r.Some? ==> r.value < |zones| && zones[r.value].Contains(x, y)
    ensures r.Some? ==> forall k :: 0 <= k < r.value ==> !zones[k].Contains(x, y)
    ensures r.None? <==> forall k :: 0 <= k < |zones| ==> !zones[k].Contains(x, y)
    decreases |zones|
  {
    if |zones| == 0 then None
    else if zones[0].Contains(x, y) then Some(0)
    else
      match DropZoneAt(zones[1..], x, y)
      case None => None
      case Some(k) =>
        assert forall j :: 1 <= j < k + 1 ==> zones[j] == zones[1..][j - 1];
        Some(k + 1)
  }

  /** A zone's corners belong to it, so a release exactly on an edge
      counts as inside. */
  lemma CornerHitsZone(zones: seq<Rect>, k: nat)
    requires k < |zones| && zones[k].left <= zones[k].right && zones[k].top <= zones[k].bottom
    ensures DropZoneAt(zones, zones[k].right, zones[k].bottom).Some?
    ensures DropZoneAt(zones, zones[k].right, zones[k].bottom).value <= k
  {
  }
}

=== FILE: game_board.dfy ===
/** The component-based game view-model: the card list, the ordered
    selection (at most four ids), the completed groups, the colour last
    applied, and the loaded puzzle. Each handler is a pure transition from
    one view-model state to the next; rendering is not modelled. */
module GameBoard {
  import opened Common
  import Decimal
  import opened Seqs

  datatype Group = Group(category: string, words: seq<string>, color: Color)

  datatype ConnectionPuzzle = ConnectionPuzzle(date: string, groups: seq<Group>)

  /** A card on the board. The optional `color` (absent or `null` alike) is
      `None` when the card is untagged. */
  datatype CardPosition = CardPosition(id: string, x: int, y: int, text: string, color: Option<Color>)

  datatype GameState = GameState(
    cards: seq<CardPosition>,
    selected: seq<string>,
    completed: seq<Group>,
    currentColor: Option<Color>,
    puzzle: Option<ConnectionPuzzle>)

  const MaxSelected: nat := 4

  /** The selection invariant: at most four ids, none twice. */
  predicate ValidSelection(selected: seq<string>)
  {
    |selected| <= MaxSelected && Distinct(selected)
  }

  // ---------------------------------------------------------------------
  // Initial layout

  function CardId(index: nat): string
  {
    "card-" + Decimal.NatToString(index)
  }

  /** `groups.flatMap(group => group.words)`. */
  function FlatWords(groups: seq<Group>): (words: seq<string>)
    ensures forall w :: w in words <==> exists i :: 0 <= i < |groups| && w in groups[i].words
    decreases |groups|
  {
    if |groups| == 0 then []
    else
      var rest := FlatWords(groups[1..]);
      forall w | w in rest
        ensures exists i :: 0 <= i < |groups| && w in groups[i].words
      {
        var i :| 0 <= i < |groups[1..]| && w in groups[1..][i].words;
        assert groups[i + 1] == groups[1..][i];
      }
      forall w, i | 1 <= i < |groups| && w in groups[i].words
        ensures w in rest
      {
        assert groups[1..][i - 1] == groups[i];
      }
      groups[0].words + rest
  }

  function LayoutX(index: nat): int { 50 + (index % 4) * 170 }

  function LayoutY(index: nat): int { 50 + (index / 4) * 80 }

  /** One uncoloured card per word, in group order, each on its grid cell. */
  function InitialCards(puzzle: ConnectionPuzzle): (cards: seq<CardPosition>)
    ensures |cards| == |FlatWords(puzzle.groups)|
    ensures forall i :: 0 <= i < |cards| ==>
      cards[i].text == FlatWords(puzzle.groups)[i] && cards[i].color.None?
    ensures forall i :: 0 <= i < |cards| ==>
      exists g :: 0 <= g < |puzzle.groups| && cards[i].text in puzzle.groups[g].words
    ensures forall i :: 0 <= i < |cards| ==>
      cards[i].id == CardId(i) && cards[i].x == 50 + (i % 4) * 170 && cards[i].y == 50 + (i / 4) * 80
  {
    var words := FlatWords(puzzle.groups);
    assert forall i :: 0 <= i < |words| ==> words[i] in words;
    seq(|words|, i requires 0 <= i < |words| =>
      CardPosition(CardId(i), LayoutX(i), LayoutY(i), words[i], None))
  }

  /** The successful branch of `loadPuzzle`: the fetched puzzle (a parameter
      here) becomes current and its words are laid out four to a row. */
  function LoadPuzzle(s: GameState, puzzle: ConnectionPuzzle): (r: GameState)
    ensures r.puzzle == Some(puzzle)
    ensures r.cards == InitialCards(puzzle)
    ensures |r.cards| == |FlatWords(puzzle.groups)|
    ensures forall i :: 0 <= i < |r.cards| ==>
      r.cards[i].text == FlatWords(puzzle.groups)[i] && r.cards[i].color.None?
    ensures r.selected == s.selected && r.completed == s.completed && r.currentColor == s.currentColor
  {
    s.(puzzle := Some(puzzle), cards := InitialCards(puzzle))
  }

  /** Laid-out cards have pairwise distinct `card-<i>` ids. */
  lemma InitialIdsDistinct(puzzle: ConnectionPuzzle)
    ensures var cards := InitialCards(puzzle);
      forall i, j :: 0 <= i < j < |cards| ==> cards[i].id != cards[j].id
  {
    var cards := InitialCards(puzzle);
    forall i, j | 0 <= i < j < |cards|
      ensures cards[i].id != cards[j].id
    {
      Decimal.PrefixedInjective("card-", i, j);
    }
  }

  /** Laid-out cards have pairwise distinct positions. */
  lemma InitialPositionsDistinct(puzzle: ConnectionPuzzle)
    ensures var cards := InitialCards(puzzle);
      forall i, j :: 0 <= i < j < |cards| ==> (cards[i].x, cards[i].y) != (cards[j].x, cards[j].y)
  {
    var cards := InitialCards(puzzle);
    forall i, j | 0 <= i < j < |cards|
      ensures (cards[i].x, cards[i].y) != (cards[j].x, cards[j].y)
    {
      if LayoutX(i) == LayoutX(j) && LayoutY(i) == LayoutY(j) {
        LayoutInjective(i, j);
      }
    }
  }

  /** Laid-out cards sit in four columns 170 apart, in rows 80 apart. */
  lemma InitialLayoutGrid(puzzle: ConnectionPuzzle)
    ensures forall c :: c in InitialCards(puzzle) ==>
      c.x in {50, 220, 390, 560} && c.y >= 50 && (c.y - 50) % 80 == 0
  {
    var cards := InitialCards(puzzle);
    forall c | c in cards
      ensures c.x in {50, 220, 390, 560} && c.y >= 50 && (c.y - 50) % 80 == 0
    {
      var i :| 0 <= i < |cards| && cards[i] == c;
      assert c.x == LayoutX(i) && c.y == LayoutY(i);
      LayoutColumns(i);
    }
  }

  lemma LayoutInjective(i: nat, j: nat)
    requires LayoutX(i) == LayoutX(j) && LayoutY(i) == LayoutY(j)
    ensures i == j
  {
    assert i % 4 == j % 4;
    assert i / 4 == j / 4;
    assert i == (i / 4) * 4 + i % 4;
    assert j == (j / 4) * 4 + j % 4;
  }

  lemma LayoutColumns(i: nat)
    ensures LayoutX(i) in {50, 220, 390, 560}
    ensures LayoutY(i) >= 50 && (LayoutY(i) - 50) % 80 == 0
  {
    var col := i % 4;
    assert col == 0 || col == 1 || col == 2 || col == 3;
  }

  // ---------------------------------------------------------------------
  // Moving a card

  /** `moveCard`: every card with this id takes the new coordinates. */
  function MoveCard(s: GameState, id: string, x: int, y: int): (r: GameState)
    ensures |r.cards| == |s.cards|
    ensures forall i :: 0 <= i < |s.cards| ==>
      if s.cards[i].id == id then r.cards[i] == s.cards[i].(x := x, y := y)
      else r.cards[i] == s.cards[i]
    ensures r.selected == s.selected && r.completed == s.completed
    ensures r.currentColor == s.currentColor && r.puzzle == s.puzzle
  {
    s.(cards := seq(|s.cards|, i requires 0 <= i < |s.cards| =>
      if s.cards[i].id == id then s.cards[i].(x := x, y := y) else s.cards[i]))
  }

  /** Only the last move of a card counts. */
  lemma MoveCardLastWins(s: GameState, id: string, x1: int, y1: int, x2: int, y2: int)
    ensures MoveCard(MoveCard(s, id, x1, y1), id, x2, y2) == MoveCard(s, id, x2, y2)
  {
  }

  /** Moves of different cards commute. */
  lemma MoveCardsCommute(s: GameState, a: string, xa: int, ya: int, b: string, xb: int, yb: int)
    requires a != b
    ensures MoveCard(MoveCard(s, a, xa, ya), b, xb, yb) == MoveCard(MoveCard(s, b, xb, yb), a, xa, ya)
  {
  }

  // ---------------------------------------------------------------------
  // Selection

  /** `selected.filter(cardId => cardId !== id)`. */
  function Without(selected: seq<string>, id: string): (r: seq<string>)
    ensures forall x :: x in r <==> x in selected && x != id
    ensures id !in selected ==> r == selected
    ensures Distinct(selected) ==> Distinct(r)
    ensures Distinct(selected) && id in selected ==> |r| == |selected| - 1
    decreases |selected|
  {
    if |selected| == 0 then []
    else
      var rest := Without(selected[1..], id);
      assert Distinct(selected) ==> Distinct(selected[1..]);
      if selected[0] == id then
        assert Distinct(selected) ==> id !in selected[1..];
        rest
      else
        assert selected == [selected[0]] + selected[1..];
        assert Distinct(selected) ==> selected[0] !in rest;
        [selected[0]] + rest
  }

  /** `handleCardClick`. */
  function HandleCardClick(s: GameState, id: string): (r: GameState)
    ensures id in s.selected ==> (forall x :: x in r.selected <==> x in s.selected && x != id)
    ensures id !in s.selected && |s.selected| < MaxSelected ==> r.selected == s.selected + [id]
    ensures id !in s.selected && |s.selected| >= MaxSelected ==> r == s
    ensures ValidSelection(s.selected) ==> ValidSelection(r.selected)
    ensures r.cards == s.cards && r.completed == s.completed
    ensures r.currentColor == s.currentColor && r.puzzle == s.puzzle
  {
    if id in s.selected then s.(selected := Without(s.selected, id))
    else if |s.selected| < MaxSelected then s.(selected := s.selected + [id])
    else s
  }

  /** Selecting a card and clicking it again restores the selection. */
  lemma ClickTwiceRestores(s: GameState, id: string)
    requires id !in s.selected && |s.selected| < MaxSelected
    ensures HandleCardClick(HandleCardClick(s, id), id) == s
  {
    var t := HandleCardClick(s, id);
    WithoutLast(s.selected, id);
  }

  lemma {:induction false} WithoutLast(selected: seq<string>, id: string)
    requires id !in selected
    ensures Without(selected + [id], id) == selected
    decreases |selected|
  {
    if |selected| == 0 {
      assert Without([id], id) == Without([], id);
    } else {
      assert (selected + [id])[1..] == selected[1..] + [id];
      WithoutLast(selected[1..], id);
      assert selected == [selected[0]] + selected[1..];
    }
  }

  /** `resetSelection`. */
  function ResetSelection(s: GameState): (r: GameState)
    ensures r.selected == [] && r.currentColor == None
    ensures r.cards == s.cards && r.completed == s.completed && r.puzzle == s.puzzle
  {
    s.(selected := [], currentColor := None)
  }

  // ---------------------------------------------------------------------
  // Colouring the selection

  /** `applyColorToSelected`. */
  function ApplyColorToSelected(s: GameState, c: Color): (r: GameState)
    ensures |r.cards| == |s.cards|
    ensures forall i :: 0 <= i < |s.cards| ==>
      if s.cards[i].id in s.selected then r.cards[i] == s.cards[i].(color := Some(c))
      else r.cards[i] == s.cards[i]
    ensures r.currentColor == Some(c)
    ensures r.selected == s.selected && r.completed == s.completed && r.puzzle == s.puzzle
  {
    s.(cards := seq(|s.cards|, i requires 0 <= i < |s.cards| =>
         if s.cards[i].id in s.selected then s.cards[i].(color := Some(c)) else s.cards[i]),
       currentColor := Some(c))
  }

  /** Colouring the same selection twice: the second colour wins. */
  lemma ApplyColorLastWins(s: GameState, c1: Color, c2: Color)
    ensures ApplyColorToSelected(ApplyColorToSelected(s, c1), c2) == ApplyColorToSelected(s, c2)
  {
  }

  /** Colouring and moving touch different fields and commute. */
  lemma ApplyColorCommutesWithMove(s: GameState, c: Color, id: string, x: int, y: int)
    ensures ApplyColorToSelected(MoveCard(s, id, x, y), c) == MoveCard(ApplyColorToSelected(s, c), id, x, y)
  {
  }

  // ---------------------------------------------------------------------
  // Checking the selection against the puzzle

  /** `cards.find(card => card.id === id)`. */
  function FindCard(cards: seq<CardPosition>, id: string): (r: Option<CardPosition>)
    ensures r.Some? ==> r.value in cards && r.value.id == id
    ensures r.Some? ==> exists i :: 0 <= i < |cards| && cards[i] == r.value
                                    && forall j :: 0 <= j < i ==> cards[j].id != id
    ensures r.None? <==> forall i :: 0 <= i < |cards| ==> cards[i].id != id
    decreases |cards|
  {
    if |cards| == 0 then None
    else if cards[0].id == id then Some(cards[0])
    else
      var r := FindCard(cards[1..], id);
      assert forall i :: 1 <= i < |cards| ==> cards[i] == cards[1..][i - 1];
      if r.Some? then
        var i :| 0 <= i < |cards[1..]| && cards[1..][i] == r.value
                 && forall j :: 0 <= j < i ==> cards[1..][j].id != id;
        assert forall j :: 0 <= j < i + 1 ==> cards[j].id != id;
        r
      else r
  }

  /** The id names a card whose text is non-empty. */
  predicate Shown(cards: seq<CardPosition>, id: string)
  {
    FindCard(cards, id).Some? && FindCard(cards, id).value.text != ""
  }

  /** The texts of the selected cards, in selection order, dropping ids that
      name no card and texts that are empty (`filter(Boolean)`). */
  function SelectedTexts(cards: seq<CardPosition>, selected: seq<string>): (texts: seq<string>)
    ensures |texts| <= |selected|
    ensures forall t :: t in texts ==>
      t != "" && exists k :: 0 <= k < |selected| && Shown(cards, selected[k])
                             && FindCard(cards, selected[k]).value.text == t
    ensures |texts| == |selected| ==>
      forall k :: 0 <= k < |selected| ==>
        Shown(cards, selected[k]) && texts[k] == FindCard(cards, selected[k]).value.text
    decreases |selected|
  {
    if |selected| == 0 then []
    else
      var tail := selected[1..];
      var rest := SelectedTexts(cards, tail);
      assert forall k :: 1 <= k < |selected| ==> selected[k] == tail[k - 1];
      forall t | t in rest
        ensures exists k :: 0 <= k < |selected| && Shown(cards, selected[k])
                            && FindCard(cards, selected[k]).value.text == t
      {
        var k :| 0 <= k < |tail| && Shown(cards, tail[k]) && FindCard(cards, tail[k]).value.text == t;
        assert selected[k + 1] == tail[k];
      }
      if Shown(cards, selected[0]) then
        var texts := [FindCard(cards, selected[0]).value.text] + rest;
        assert forall k :: 1 <= k < |texts| ==> texts[k] == rest[k - 1];
        texts
      else
        assert |rest| < |selected|;
        rest
  }

  /** Nothing is dropped but what `find` misses or `filter(Boolean)`
      removes: the text of every selected card with a non-empty text is
      kept. */
  lemma {:induction false} SelectedTextsComplete(cards: seq<CardPosition>, selected: seq<string>, k: nat)
    requires k < |selected| && Shown(cards, selected[k])
    ensures FindCard(cards, selected[k]).value.text in SelectedTexts(cards, selected)
    decreases k
  {
    var tail := selected[1..];
    if k > 0 {
      assert selected[k] == tail[k - 1];
      SelectedTextsComplete(cards, tail, k - 1);
      assert FindCard(cards, selected[k]).value.text in SelectedTexts(cards, tail);
    }
  }

  /** When every selected id names a card with a non-empty text, one text is
      kept per id. */
  lemma {:induction false} SelectedTextsFull(cards: seq<CardPosition>, selected: seq<string>)
    requires forall k :: 0 <= k < |selected| ==> Shown(cards, selected[k])
    ensures |SelectedTexts(cards, selected)| == |selected|
    decreases |selected|
  {
    if |selected| > 0 {
      var tail := selected[1..];
      assert Shown(cards, selected[0]);
      forall k | 0 <= k < |tail|
        ensures Shown(cards, tail[k])
      {
        assert tail[k] == selected[k + 1];
      }
      SelectedTextsFull(cards, tail);
    }
  }

  /** The matching rule: every selected text is among the group's words and
      the counts agree. */
  predicate GroupMatches(g: Group, texts: seq<string>)
  {
    (forall t :: t in texts ==> t in g.words) && |texts| == |g.words|
  }

  /** `puzzle.groups.find(...)`: the first matching group. */
  function FindGroup(groups: seq<Group>, texts: seq<string>): (r: Option<Group>)
    ensures r.Some? ==> r.value in groups && GroupMatches(r.value, texts)
    ensures r.Some? ==> exists i :: 0 <= i < |groups| && groups[i] == r.value
                                    && forall j :: 0 <= j < i ==> !GroupMatches(groups[j], texts)
    ensures r.None? <==> forall i :: 0 <= i < |groups| ==> !GroupMatches(groups[i], texts)
    decreases |groups|
  {
    if |groups| == 0 then None
    else if GroupMatches(groups[0], texts) then Some(groups[0])
    else
      var r := FindGroup(groups[1..], texts);
      assert forall i :: 1 <= i < |groups| ==> groups[i] == groups[1..][i - 1];
      if r.Some? then
        var i :| 0 <= i < |groups[1..]| && groups[1..][i] == r.value
                 && forall j :: 0 <= j < i ==> !GroupMatches(groups[1..][j], texts);
        assert forall j :: 0 <= j < i + 1 ==> !GroupMatches(groups[j], texts);
        r
      else r
  }

  /** `cards.filter(card => !selected.includes(card.id))`. */
  function RemoveSelected(cards: seq<CardPosition>, selected: seq<string>): (r: seq<CardPosition>)
    ensures forall c :: c in r <==> c in cards && c.id !in selected
    ensures |r| <= |cards|
    decreases |cards|
  {
    if |cards| == 0 then []
    else if cards[0].id in selected then RemoveSelected(cards[1..], selected)
    else [cards[0]] + RemoveSelected(cards[1..], selected)
  }

  /** `checkSelection`. */
  function CheckSelection(s: GameState): (r: GameState)
    ensures |s.selected| != MaxSelected || s.puzzle.None? ==> r == s
    ensures r.puzzle == s.puzzle
    ensures r.selected == s.selected || r.selected == []
    ensures r != s ==> r.selected == []
  {
    if |s.selected| != MaxSelected || s.puzzle.None? then s
    else
      var texts := SelectedTexts(s.cards, s.selected);
      match FindGroup(s.puzzle.value.groups, texts)
      case Some(g) =>
        s.(completed := s.completed + [g],
           cards := RemoveSelected(s.cards, s.selected),
           selected := [])
      case None => ResetSelection(s)
  }

  /** On a match the group is recorded, exactly the selected cards leave the
      board, and the selection empties; the colour last applied stays. */
  lemma CheckSelectionOnMatch(s: GameState, g: Group)
    requires |s.selected| == MaxSelected && s.puzzle.Some?
    requires FindGroup(s.puzzle.value.groups, SelectedTexts(s.cards, s.selected)) == Some(g)
    ensures CheckSelection(s).completed == s.completed + [g]
    ensures forall c :: c in CheckSelection(s).cards <==> c in s.cards && c.id !in s.selected
    ensures CheckSelection(s).selected == []
    ensures CheckSelection(s).currentColor == s.currentColor
    ensures g in s.puzzle.value.groups
  {
  }

  /** On a mismatch the cards stay, the selection clears and the colour last
      applied is forgotten. */
  lemma CheckSelectionOnMismatch(s: GameState)
    requires |s.selected| == MaxSelected && s.puzzle.Some?
    requires FindGroup(s.puzzle.value.groups, SelectedTexts(s.cards, s.selected)).None?
    ensures CheckSelection(s) == s.(selected := [], currentColor := None)
    ensures forall g :: g in s.puzzle.value.groups ==> !GroupMatches(g, SelectedTexts(s.cards, s.selected))
  {
  }

  /** The matching rule is set equality when neither the selected texts nor
      the group's words repeat. */
  lemma {:induction false} MatchIsSetEquality(g: Group, texts: seq<string>)
    requires Distinct(texts) && Distinct(g.words)
    ensures GroupMatches(g, texts) <==> Elems(texts) == Elems(g.words)
  {
    var st, sw := Elems(texts), Elems(g.words);
    DistinctCardinality(texts);
    DistinctCardinality(g.words);
    if GroupMatches(g, texts) {
      assert st <= sw;
      SubsetSameSizeEqual(st, sw);
    }
    if st == sw {
      assert forall t :: t in texts ==> t in st;
      assert |texts| == |g.words|;
    }
  }

  /** With distinct card ids, a match on a four-word group removes exactly
      four cards. */
  lemma MatchRemovesFourCards(s: GameState, g: Group)
    requires |s.selected| == MaxSelected && s.puzzle.Some? && ValidSelection(s.selected)
    requires Distinct(Ids(s.cards))
    requires FindGroup(s.puzzle.value.groups, SelectedTexts(s.cards, s.selected)) == Some(g)
    requires |g.words| == 4
    ensures |CheckSelection(s).cards| == |s.cards| - 4
  {
    var texts := SelectedTexts(s.cards, s.selected);
    assert GroupMatches(g, texts);
    assert CheckSelection(s).cards == RemoveSelected(s.cards, s.selected);
    FullSelectionNamesCards(s.cards, s.selected);
    RemovePresentIds(s.cards, s.selected);
  }

  /** Removing distinct ids that all name cards, from cards whose ids are
      distinct, removes one card per id. */
  lemma RemovePresentIds(cards: seq<CardPosition>, selected: seq<string>)
    requires Distinct(Ids(cards)) && Distinct(selected)
    requires forall k :: 0 <= k < |selected| ==> selected[k] in IdSet(cards)
    ensures |RemoveSelected(cards, selected)| == |cards| - |selected|
  {
    var sel := Elems(selected);
    DistinctCardinality(selected);
    assert sel <= IdSet(cards);
    assert sel * IdSet(cards) == sel;
    RemovedCount(cards, selected, sel);
  }

  /** When no selected text is dropped, every selected id is a card's id. */
  lemma FullSelectionNamesCards(cards: seq<CardPosition>, selected: seq<string>)
    requires |SelectedTexts(cards, selected)| == |selected|
    ensures forall k :: 0 <= k < |selected| ==> selected[k] in IdSet(cards)
  {
    forall k | 0 <= k < |selected|
      ensures selected[k] in IdSet(cards)
    {
      assert Shown(cards, selected[k]);
      var c := FindCard(cards, selected[k]).value;
      assert c in cards && c.id == selected[k];
      var i :| 0 <= i < |cards| && cards[i] == c;
    }
  }

  function Ids(cards: seq<CardPosition>): (ids: seq<string>)
    ensures |ids| == |cards|
    ensures forall i :: 0 <= i < |cards| ==> ids[i] == cards[i].id
  {
    seq(|cards|, i requires 0 <= i < |cards| => cards[i].id)
  }

  function IdSet(cards: seq<CardPosition>): (r: set<string>)
    ensures forall x :: x in r <==> exists k :: 0 <= k < |cards| && cards[k].id == x
    decreases |cards|
  {
    if |cards| == 0 then {}
    else
      var rest := IdSet(cards[1..]);
      assert forall k :: 1 <= k < |cards| ==> cards[k] == cards[1..][k - 1];
      {cards[0].id} + rest
  }

  lemma {:induction false} RemovedCount(cards: seq<CardPosition>, selected: seq<string>, sel: set<string>)
    requires Distinct(Ids(cards))
    requires forall x :: x in selected <==> x in sel
    ensures |RemoveSelected(cards, selected)| + |sel * IdSet(cards)| == |cards|
    decreases |cards|
  {
    if |cards| == 0 {
      assert sel * IdSet(cards) == {};
    } else {
      var rest := cards[1..];
      HeadIdUnique(cards);
      assert IdSet(cards) == {cards[0].id} + IdSet(rest);
      RemovedCount(rest, selected, sel);
      IntersectWithNew(sel, IdSet(rest), cards[0].id);
    }
  }

  /** Without repeated ids, the first card's id is not among the others'. */
  lemma HeadIdUnique(cards: seq<CardPosition>)
    requires |cards| > 0 && Distinct(Ids(cards))
    ensures Distinct(Ids(cards[1..]))
    ensures cards[0].id !in IdSet(cards[1..])
  {
    var ids := Ids(cards);
    TailDistinct(ids);
    assert Ids(cards[1..]) == ids[1..];
    forall k | 0 <= k < |cards| - 1
      ensures cards[1..][k].id != cards[0].id
    {
      assert ids[k + 1] == cards[1..][k].id && ids[0] == cards[0].id;
    }
  }

  lemma IntersectWithNew(sel: set<string>, a: set<string>, id: string)
    requires id !in a
    ensures |sel * ({id} + a)| == (if id in sel then 1 else 0) + |sel * a|
  {
    if id in sel {
      assert sel * ({id} + a) == {id} + sel * a;
    } else {
      assert sel * ({id} + a) == sel * a;
    }
  }

}

=== FILE: persistence.dfy ===
/** Saving the imperative client's board to local storage and restoring it.
    Local storage is a map from key to entry; an entry is either a state
    record that parses or text that does not (the JSON byte format is not
    modelled). The note text, stored under its own key, is not modelled. */
module Persistence {
  import opened Common
  import opened ClientBoard
  import opened Seqs

  datatype Position = Position(left: string, top: string)

  /** One saved card. A record written by this client always has a
      position; one read back may lack it. */
  datatype CardState = CardState(id: string, text: string, position: Option<Position>, color: Option<Color>)

  datatype SavedState = SavedState(puzzleDate: string, cards: seq<CardState>)

  datatype Entry = Unparseable | Parsed(state: SavedState)

  type Storage = map<string, Entry>

  /** The outcome of `loadSavedState`: whether a state was applied, and the
      board afterwards. */
  datatype LoadResult = LoadResult(loaded: bool, board: Board)

  const StatePrefix: string := "puzzleState_"

  /** `puzzleState_<date>`. */
  function StateKey(date: string): (key: string)
    ensures |key| == |StatePrefix| + |date|
    ensures key[..|StatePrefix|] == StatePrefix && key[|StatePrefix|..] == date
  {
    StatePrefix + date
  }

  /** Distinct puzzle dates never share a storage key. */
  lemma StateKeyInjective(d1: string, d2: string)
    ensures StateKey(d1) == StateKey(d2) <==> d1 == d2
  {
    if StateKey(d1) == StateKey(d2) {
      assert StateKey(d1)[|StatePrefix|..] == StateKey(d2)[|StatePrefix|..];
    }
  }

  // ---------------------------------------------------------------------
  // Saving

  function CardRecord(card: DomCard): (r: CardState)
    ensures r.id == card.id && r.text == card.text
    ensures r.position == Some(Position(card.left, card.top))
    ensures r.color == FirstColor(card.colors)
  {
    CardState(card.id, card.text, Some(Position(card.left, card.top)), FirstColor(card.colors))
  }

  function Snapshot(board: Board): (s: SavedState)
    ensures s.puzzleDate == board.date && |s.cards| == |board.cards|
    ensures forall i :: 0 <= i < |board.cards| ==> s.cards[i] == CardRecord(board.cards[i])
  {
    SavedState(board.date, seq(|board.cards|, i requires 0 <= i < |board.cards| => CardRecord(board.cards[i])))
  }

  /** `saveCurrentState`: one record per card, in card order, under this
      puzzle's key; every other key is left alone. */
  function SaveCurrentState(board: Board, storage: Storage): (r: Storage)
    ensures StateKey(board.date) in r && r[StateKey(board.date)] == Parsed(Snapshot(board))
    ensures forall key :: key != StateKey(board.date) ==> (key in r <==> key in storage)
    ensures forall key :: key in storage && key != StateKey(board.date) ==> r[key] == storage[key]
  {
    storage[StateKey(board.date) := Parsed(Snapshot(board))]
  }

  // ---------------------------------------------------------------------
  // Loading

  /** `document.getElementById`: the first card with this id. The empty id
      names no element, so a card saved without an id attribute is skipped. */
  function IndexOfId(cards: seq<DomCard>, id: string): (r: Option<nat>)
    ensures r.Some? ==> r.value < |cards| && cards[r.value].id == id
    ensures r.Some? ==> forall k :: 0 <= k < r.value ==> cards[k].id != id
    ensures r.None? <==> id == "" || forall k :: 0 <= k < |cards| ==> cards[k].id != id
    decreases |cards|
  {
    if id == "" || |cards| == 0 then None
    else if cards[0].id == id then Some(0)
    else
      match IndexOfId(cards[1..], id)
      case None => None
      case Some(k) =>
        assert forall j :: 1 <= j < k + 1 ==> cards[j] == cards[1..][j - 1];
        Some(k + 1)
  }

  /** What one stored record does to its card: the position when both
      `left` and `top` are non-empty, and the colour, replacing all others,
      when one is stored. The text is only compared (a mismatch warns). */
  function ApplyToCard(card: DomCard, rec: CardState): (r: DomCard)
    ensures r.id == card.id && r.text == card.text
    ensures (rec.position.Some? && rec.position.value.left != "" && rec.position.value.top != "")
      ==> r.left == rec.position.value.left && r.top == rec.position.value.top
    ensures !(rec.position.Some? && rec.position.value.left != "" && rec.position.value.top != "")
      ==> r.left == card.left && r.top == card.top
    ensures r.colors == (if rec.color.Some? then {rec.color.value} else card.colors)
  {
    var placed :=
      if rec.position.Some? && rec.position.value.left != "" && rec.position.value.top != ""
      then card.(left := rec.position.value.left, top := rec.position.value.top)
      else card;
    match rec.color
    case Some(c) => placed.(colors := {c})
    case None => placed
  }

  function ApplyRecord(board: Board, rec: CardState): (r: Board)
    ensures r.date == board.date && |r.cards| == |board.cards|
    ensures IndexOfId(board.cards, rec.id).None? ==> r == board
    ensures IndexOfId(board.cards, rec.id).Some? ==>
      r.cards == board.cards[IndexOfId(board.cards, rec.id).value :=
                             ApplyToCard(board.cards[IndexOfId(board.cards, rec.id).value], rec)]
  {
    match IndexOfId(board.cards, rec.id)
    case None => board
    case Some(i) => board.(cards := board.cards[i := ApplyToCard(board.cards[i], rec)])
  }

  /** `state.cards.forEach(...)`. */
  function ApplyRecords(board: Board, recs: seq<CardState>): (r: Board)
    ensures r.date == board.date && |r.cards| == |board.cards|
    ensures forall i :: 0 <= i < |board.cards| ==>
      r.cards[i].id == board.cards[i].id && r.cards[i].text == board.cards[i].text
    ensures SingleColored(board.cards) ==> SingleColored(r.cards)
    decreases |recs|
  {
    if |recs| == 0 then board
    else ApplyRecords(ApplyRecord(board, recs[0]), recs[1..])
  }

  /** `loadSavedState`: `false` with the board untouched when there is no
      entry under this puzzle's key, when it does not parse, or when it
      belongs to another date; otherwise every stored record is applied. */
  function LoadSavedState(board: Board, storage: Storage): (r: LoadResult)
    ensures r.loaded <==> StateKey(board.date) in storage
                          && storage[StateKey(board.date)].Parsed?
                          && storage[StateKey(board.date)].state.puzzleDate == board.date
    ensures !r.loaded ==> r.board == board
    ensures r.loaded ==> r.board == ApplyRecords(board, storage[StateKey(board.date)].state.cards)
  {
    var key := StateKey(board.date);
    if key !in storage then LoadResult(false, board)
    else match storage[key]
      case Unparseable => LoadResult(false, board)
      case Parsed(state) =>
        if state.puzzleDate != board.date then LoadResult(false, board)
        else LoadResult(true, ApplyRecords(board, state.cards))
  }

  // ---------------------------------------------------------------------
  // Properties

  function Ids(cards: seq<DomCard>): (ids: seq<string>)
    ensures |ids| == |cards| && forall i :: 0 <= i < |cards| ==> ids[i] == cards[i].id
  {
    seq(|cards|, i requires 0 <= i < |cards| => cards[i].id)
  }

  /** A text mismatch does not stop a record from being applied. */
  lemma TextMismatchStillApplies(board: Board, rec: CardState, text: string)
    ensures ApplyRecord(board, rec.(text := text)) == ApplyRecord(board, rec)
  {
  }

  /** What loading does to one card of the page: a card whose id names a
      saved card takes that card's record; any other card, and a card
      without an id, keeps everything. */
  function RestoredCard(card: DomCard, saved: seq<DomCard>): (r: DomCard)
    ensures r.id == card.id && r.text == card.text
    ensures IndexOfId(saved, card.id).None? ==> r == card
    ensures IndexOfId(saved, card.id).Some? ==>
      r == ApplyToCard(card, CardRecord(saved[IndexOfId(saved, card.id).value]))
  {
    match IndexOfId(saved, card.id)
    case None => card
    case Some(j) => ApplyToCard(card, CardRecord(saved[j]))
  }

  /** Saving one board and loading onto a page whose cards carry distinct
      ids, in any order: the cards are matched by id, not by position, so
      each page card ends as `RestoredCard` says. Cards moved to the end of
      the board on release, or a page rendered from reshuffled words, are
      covered. */
  lemma RestoreById(saved: Board, page: Board, storage: Storage)
    requires page.date == saved.date
    requires Distinct(Ids(saved.cards)) && Distinct(Ids(page.cards))
    ensures var r := LoadSavedState(page, SaveCurrentState(saved, storage));
      r.loaded
      && |r.board.cards| == |page.cards|
      && forall i :: 0 <= i < |page.cards| ==> r.board.cards[i] == RestoredCard(page.cards[i], saved.cards)
  {
    var recs := Snapshot(saved).cards;
    var stored := SaveCurrentState(saved, storage);
    assert stored[StateKey(page.date)] == Parsed(Snapshot(saved));
    assert LoadSavedState(page, stored).board == ApplyRecords(page, recs);
    assert PartlyRestored(page, saved.cards, 0) == page;
    assert recs[0..] == recs;
    ApplyRecordsById(page, saved.cards, recs, 0);
    var done := PartlyRestored(page, saved.cards, |saved.cards|);
    forall i | 0 <= i < |page.cards|
      ensures done.cards[i] == RestoredCard(page.cards[i], saved.cards)
    {
    }
  }

  /** The page after the records of the first `k` saved cards have been
      applied. */
  function PartlyRestored(page: Board, saved: seq<DomCard>, k: nat): (r: Board)
    ensures r.date == page.date && |r.cards| == |page.cards|
    ensures forall i :: 0 <= i < |page.cards| ==> r.cards[i].id == page.cards[i].id
  {
    page.(cards := seq(|page.cards|, i requires 0 <= i < |page.cards| =>
      if RestoredBefore(page.cards[i], saved, k) then RestoredCard(page.cards[i], saved) else page.cards[i]))
  }

  predicate RestoredBefore(card: DomCard, saved: seq<DomCard>, k: nat)
  {
    IndexOfId(saved, card.id).Some? && IndexOfId(saved, card.id).value < k
  }

  /** Without repeated ids, a card with an id is found at its own place. */
  lemma {:induction false} FoundAtOwnPlace(cards: seq<DomCard>, k: nat)
    requires Distinct(Ids(cards)) && k < |cards| && cards[k].id != ""
    ensures IndexOfId(cards, cards[k].id) == Some(k)
  {
    var id := cards[k].id;
    var r := IndexOfId(cards, id);
    assert r.Some? by {
      assert cards[k].id == id;
    }
    var ids := Ids(cards);
    assert ids[r.value] == ids[k];
  }

  lemma {:induction false} ApplyRecordsById(page: Board, saved: seq<DomCard>, recs: seq<CardState>, k: nat)
    requires k <= |saved| == |recs|
    requires forall j :: 0 <= j < |recs| ==> recs[j] == CardRecord(saved[j])
    requires Distinct(Ids(saved)) && Distinct(Ids(page.cards))
    ensures ApplyRecords(PartlyRestored(page, saved, k), recs[k..]) == PartlyRestored(page, saved, |saved|)
    decreases |recs| - k
  {
    if k < |recs| {
      assert recs[k..][0] == recs[k];
      assert recs[k..][1..] == recs[k + 1..];
      RecordStep(page, saved, recs[k], k);
      ApplyRecordsById(page, saved, recs, k + 1);
    } else {
      assert recs[k..] == [];
    }
  }

  /** Applying the record of saved card `k` moves the page from `k` records
      restored to `k + 1`. */
  lemma {:induction false} RecordStep(page: Board, saved: seq<DomCard>, rec: CardState, k: nat)
    requires k < |saved| && rec == CardRecord(saved[k])
    requires Distinct(Ids(saved)) && Distinct(Ids(page.cards))
    ensures ApplyRecord(PartlyRestored(page, saved, k), rec) == PartlyRestored(page, saved, k + 1)
  {
    var b := PartlyRestored(page, saved, k);
    var next := PartlyRestored(page, saved, k + 1);
    var id := saved[k].id;
    match IndexOfId(b.cards, id)
    case None =>
      forall i | 0 <= i < |page.cards|
        ensures next.cards[i] == b.cards[i]
      {
        assert b.cards[i].id == page.cards[i].id;
        OtherCardUnaffected(page.cards[i], saved, k);
      }
      assert next.cards == b.cards;
    case Some(p) =>
      FoundAtOwnPlace(saved, k);
      var after := b.cards[p := ApplyToCard(b.cards[p], rec)];
      forall i | 0 <= i < |page.cards|
        ensures next.cards[i] == after[i]
      {
        if i != p {
          OnlyOneWithId(page.cards, p, i);
          OtherCardUnaffected(page.cards[i], saved, k);
        }
      }
      assert next.cards == after;
  }

  /** The record of saved card `k` does not change whether a card with
      another id (or with none) counts as restored. */
  lemma OtherCardUnaffected(card: DomCard, saved: seq<DomCard>, k: nat)
    requires k < |saved| && (card.id != saved[k].id || card.id == "")
    ensures RestoredBefore(card, saved, k + 1) == RestoredBefore(card, saved, k)
  {
  }

  /** Without repeated ids, no other card shares the id of card `p`. */
  lemma OnlyOneWithId(cards: seq<DomCard>, p: nat, i: nat)
    requires Distinct(Ids(cards)) && p < |cards| && i < |cards| && i != p
    ensures cards[i].id != cards[p].id
  {
    var ids := Ids(cards);
    assert ids[i] == cards[i].id && ids[p] == cards[p].id;
  }

  /** Saving and then loading on an unchanged board whose ids are distinct
      and whose cards carry at most one colour each changes nothing. */
  lemma SaveThenLoadIsIdentity(board: Board, storage: Storage)
    requires Distinct(Ids(board.cards)) && SingleColored(board.cards)
    ensures LoadSavedState(board, SaveCurrentState(board, storage)) == LoadResult(true, board)
  {
    RestoreById(board, board, storage);
    var r := LoadSavedState(board, SaveCurrentState(board, storage));
    forall i | 0 <= i < |board.cards|
      ensures r.board.cards[i] == board.cards[i]
    {
      if board.cards[i].id != "" {
        FoundAtOwnPlace(board.cards, i);
      }
      FirstColorOfSingle(board.cards[i].colors);
    }
  }

  /** Saving right after a colour-dot click and loading onto the same board
      changes nothing. */
  lemma DotClickSaveLoadIsIdentity(board: Board, storage: Storage, index: nat, dot: Dot)
    requires index < |board.cards|
    requires Distinct(Ids(board.cards)) && SingleColored(board.cards)
    ensures var after := ClickDotOnCard(board, index, dot);
      LoadSavedState(after, SaveCurrentState(after, storage)) == LoadResult(true, after)
  {
    var after := ClickDotOnCard(board, index, dot);
    assert Distinct(Ids(after.cards)) by {
      forall i | 0 <= i < |after.cards|
        ensures after.cards[i].id == board.cards[i].id
      {
      }
    }
    SaveThenLoadIsIdentity(after, storage);
  }

  /** A freshly rendered page for `b`: the same date, cards with distinct
      ids in any order (a reload renders the words reshuffled), and no colour
      classes yet. */
  predicate FreshPageOf(page: Board, b: Board)
  {
    page.date == b.date && Distinct(Ids(page.cards))
    && forall i :: 0 <= i < |page.cards| ==> page.cards[i].colors == {}
  }

  /** A reload: the page is rendered afresh and `loadSavedState` runs on it
      with what was saved last. Every page card whose id names a saved card
      shows that card's position and colour (its own text stays); every other
      page card is left as rendered. Needs each saved card to carry at most one
      colour and a set position, as one placed on the board does. */
  lemma ReloadShowsSavedBoard(b: Board, page: Board, storage: Storage)
    requires Distinct(Ids(b.cards)) && SingleColored(b.cards)
    requires forall j :: 0 <= j < |b.cards| ==> b.cards[j].left != "" && b.cards[j].top != ""
    requires FreshPageOf(page, b)
    ensures var r := LoadSavedState(page, SaveCurrentState(b, storage));
      r.loaded && |r.board.cards| == |page.cards|
      && (forall i, j :: 0 <= i < |page.cards| && 0 <= j < |b.cards|
            && page.cards[i].id == b.cards[j].id && b.cards[j].id != ""
            ==> r.board.cards[i] == b.cards[j].(text := page.cards[i].text))
      && (forall i :: 0 <= i < |page.cards| && IndexOfId(b.cards, page.cards[i].id).None?
            ==> r.board.cards[i] == page.cards[i])
  {
    RestoreById(b, page, storage);
    var r := LoadSavedState(page, SaveCurrentState(b, storage));
    forall i, j | 0 <= i < |page.cards| && 0 <= j < |b.cards|
                  && page.cards[i].id == b.cards[j].id && b.cards[j].id != ""
      ensures r.board.cards[i] == b.cards[j].(text := page.cards[i].text)
    {
      FoundAtOwnPlace(b.cards, j);
      FirstColorOfSingle(b.cards[j].colors);
    }
  }

  /** A reload after a colour-dot click shows every clicked-on card as the
      click left it, wherever the page puts it. */
  lemma ReloadAfterDotClick(board: Board, page: Board, storage: Storage, index: nat, dot: Dot)
    requires index < |board.cards|
    requires Distinct(Ids(board.cards)) && SingleColored(board.cards)
    requires forall j :: 0 <= j < |board.cards| ==> board.cards[j].left != "" && board.cards[j].top != ""
    requires FreshPageOf(page, ClickDotOnCard(board, index, dot))
    ensures var after := ClickDotOnCard(board, index, dot);
      var r := LoadSavedState(page, SaveCurrentState(after, storage));
      r.loaded
      && forall i :: 0 <= i < |page.cards| && page.cards[i].id == board.cards[index].id
                     && board.cards[index].id != ""
           ==> r.board.cards[i].colors == ClickColorDot(board.cards[index].colors, dot)
  {
    var after := ClickDotOnCard(board, index, dot);
    assert Distinct(Ids(after.cards)) by {
      forall i | 0 <= i < |after.cards|
        ensures after.cards[i].id == board.cards[i].id
      {
      }
    }
    ReloadShowsSavedBoard(after, page, storage);
  }
}

=== FILE: puzzle_utils.dfy ===
/** The server-side puzzle utilities: lookup of a puzzle by date, the
    newest-first listing, the display record with shuffled words, the
    deterministic part of hint generation, and the answer check.

    Loading the puzzle file is replaced by a `puzzles` parameter holding its
    decoded contents; the random generator is replaced by parameters holding
    the values it would have drawn. */
module PuzzleUtils {
  import opened Common
  import opened StringOrder
  import Decimal
  import opened Seqs

  /** One entry of a puzzle's `answers`: a category name and its words. */
  datatype Answer = Answer(group: string, members: seq<string>)

  /** One decoded puzzle of the data file. */
  datatype Puzzle = Puzzle(id: nat, date: string, answers: seq<Answer>)

  /** What `format_puzzle_for_display` returns. */
  datatype Display = Display(id: nat, date: string, title: string,
                             words: seq<string>, answers: seq<Answer>)

  /** A hint: the fixed reply for an unknown level, or one of the level's
      phrasings about the answer group the generator picked (the phrasing
      itself is a random choice and is not modelled). */
  datatype Hint = Fallback(text: string) | Templated(level: string, about: Answer)

  const Latest: string := "latest"

  const UnknownLevelReply: string :=
    "I'm not sure what kind of hint you're looking for. Try 'beginner', 'intermediate', or 'advanced'."

  // ---------------------------------------------------------------------
  // Ordering puzzles by date

  /** Newest first: every later entry has a date no greater than every
      earlier one. */
  ghost predicate SortedNewestFirst(ps: seq<Puzzle>)
  {
    forall i, j :: 0 <= i < j < |ps| ==> LexLe(ps[j].date, ps[i].date)
  }

  /** Inserts `x`, which precedes every element of `s` in the original
      list, before the first element whose date is not greater than its own,
      so that equal dates keep their original relative order. */
  function InsertNewestFirst(x: Puzzle, s: seq<Puzzle>): (r: seq<Puzzle>)
    requires SortedNewestFirst(s)
    ensures multiset(r) == multiset(s) + multiset{x}
    ensures SortedNewestFirst(r)
    decreases |s|
  {
    if |s| == 0 then [x]
    else if LexLe(s[0].date, x.date) then
      forall y | y in s
        ensures LexLe(y.date, x.date)
      {
        var j :| 0 <= j < |s| && s[j] == y;
        if j > 0 { LexLeTransitive(s[j].date, s[0].date, x.date); }
      }
      PrependKeepsSorted(x, s);
      [x] + s
    else
      LexLeTotal(s[0].date, x.date);
      var rest := InsertNewestFirst(x, s[1..]);
      forall y | y in rest
        ensures LexLe(y.date, s[0].date)
      {
        assert y in multiset(rest);
        if y != x {
          assert y in multiset(s[1..]);
          var j :| 0 <= j < |s[1..]| && s[1..][j] == y;
          assert s[j + 1] == y;
        }
      }
      PrependKeepsSorted(s[0], rest);
      assert s == [s[0]] + s[1..];
      [s[0]] + rest
  }

  /** A puzzle no older than any in a sorted list may go in front of it. */
  lemma PrependKeepsSorted(h: Puzzle, s: seq<Puzzle>)
    requires SortedNewestFirst(s)
    requires forall y :: y in s ==> LexLe(y.date, h.date)
    ensures SortedNewestFirst([h] + s)
  {
    var r := [h] + s;
    forall i, j | 0 <= i < j < |r|
      ensures LexLe(r[j].date, r[i].date)
    {
      assert r[j] == s[j - 1];
      if i > 0 { assert r[i] == s[i - 1]; }
    }
  }

  /** The puzzles dated `d`, in their order in `ps`. */
  function WithDate(ps: seq<Puzzle>, d: string): (r: seq<Puzzle>)
    ensures forall p :: p in r <==> p in ps && p.date == d
    decreases |ps|
  {
    if |ps| == 0 then []
    else (if ps[0].date == d then [ps[0]] else []) + WithDate(ps[1..], d)
  }

  lemma WithDateCons(p: Puzzle, t: seq<Puzzle>, d: string)
    ensures WithDate([p] + t, d) == (if p.date == d then [p] else []) + WithDate(t, d)
  {
    assert ([p] + t)[1..] == t;
  }

  /** Inserting `x` puts it ahead of every puzzle of its own date and moves
      no other puzzle past one of the same date. */
  lemma {:induction false} InsertKeepsDateOrder(x: Puzzle, s: seq<Puzzle>, d: string)
    requires SortedNewestFirst(s)
    ensures WithDate(InsertNewestFirst(x, s), d)
            == (if x.date == d then [x] else []) + WithDate(s, d)
    decreases |s|
  {
    if |s| == 0 {
      assert InsertNewestFirst(x, s) == [x] + s;
      WithDateCons(x, s, d);
    } else if LexLe(s[0].date, x.date) {
      assert InsertNewestFirst(x, s) == [x] + s;
      WithDateCons(x, s, d);
    } else {
      var t := s[1..];
      assert s == [s[0]] + t;
      LexLeReflexive(x.date);
      InsertKeepsDateOrder(x, t, d);
      ConsBehindOtherDate(s[0], x, InsertNewestFirst(x, t), t, d);
    }
  }

  /** Putting a puzzle of another date in front of `x` does not change which
      of the two comes first among puzzles of any one date. */
  lemma ConsBehindOtherDate(p: Puzzle, x: Puzzle, rest: seq<Puzzle>, t: seq<Puzzle>, d: string)
    requires p.date != x.date
    requires WithDate(rest, d) == (if x.date == d then [x] else []) + WithDate(t, d)
    ensures WithDate([p] + rest, d) == (if x.date == d then [x] else []) + WithDate([p] + t, d)
  {
    WithDateCons(p, rest, d);
    WithDateCons(p, t, d);
  }

  /** Python's stable `sort(key=date, reverse=True)`: a permutation, newest
      first, that keeps puzzles of the same date in their original order. */
  function SortNewestFirst(ps: seq<Puzzle>): (r: seq<Puzzle>)
    ensures multiset(r) == multiset(ps)
    ensures |r| == |ps|
    ensures SortedNewestFirst(r)
    ensures forall d :: WithDate(r, d) == WithDate(ps, d)
    decreases |ps|
  {
    if |ps| == 0 then []
    else
      assert ps == [ps[0]] + ps[1..];
      var sorted := SortNewestFirst(ps[1..]);
      forall d
        ensures WithDate(InsertNewestFirst(ps[0], sorted), d) == WithDate(ps, d)
      {
        InsertKeepsDateOrder(ps[0], sorted, d);
      }
      InsertNewestFirst(ps[0], sorted)
  }

  /** `get_all_puzzles`: the loaded puzzles, newest first, those of one date
      in file order. */
  function GetAllPuzzles(puzzles: seq<Puzzle>): (r: seq<Puzzle>)
    ensures multiset(r) == multiset(puzzles)
    ensures SortedNewestFirst(r)
    ensures forall d :: WithDate(r, d) == WithDate(puzzles, d)
  {
    SortNewestFirst(puzzles)
  }

  // ---------------------------------------------------------------------
  // Lookup by date

  /** The first puzzle in list order whose date is `date`. */
  function FindByDate(puzzles: seq<Puzzle>, date: string): (r: Option<Puzzle>)
    ensures r.None? <==> forall i :: 0 <= i < |puzzles| ==> puzzles[i].date != date
    ensures r.Some? ==> exists i :: 0 <= i < |puzzles| && puzzles[i] == r.value
                          && r.value.date == date
                          && forall j :: 0 <= j < i ==> puzzles[j].date != date
    decreases |puzzles|
  {
    if |puzzles| == 0 then None
    else if puzzles[0].date == date then Some(puzzles[0])
    else
      var r := FindByDate(puzzles[1..], date);
      assert r.Some? ==> (exists i :: 1 <= i < |puzzles| && puzzles[i] == r.value
                            && forall j :: 0 <= j < i ==> puzzles[j].date != date)
      by {
        if r.Some? {
          var i :| 0 <= i < |puzzles[1..]| && puzzles[1..][i] == r.value
            && forall j :: 0 <= j < i ==> puzzles[1..][j].date != date;
          assert forall j :: 0 <= j < i + 1 ==> puzzles[j].date != date by {
            forall j | 0 <= j < i + 1
              ensures puzzles[j].date != date
            {
              if j > 0 { assert puzzles[j] == puzzles[1..][j - 1]; }
            }
          }
        }
      }
      r
  }

  /** `get_puzzle_by_date`: `"latest"` sorts newest first and takes the head
      (an `IndexError` on an empty list); any other string is looked up. */
  function GetPuzzleByDate(puzzles: seq<Puzzle>, date: string): (r: Result<Option<Puzzle>, PyError>)
    ensures date == Latest ==> (r.Err? <==> |puzzles| == 0)
    ensures date == Latest && r.Ok? ==>
      r.value.Some? && r.value.value in puzzles
      && forall p :: p in puzzles ==> LexLe(p.date, r.value.value.date)
    ensures date != Latest ==> r == Ok(FindByDate(puzzles, date))
  {
    if date == Latest then
      if |puzzles| == 0 then Err(IndexError)
      else
        var sorted := SortNewestFirst(puzzles);
        assert sorted[0] in multiset(puzzles);
        assert forall p :: p in puzzles ==> LexLe(p.date, sorted[0].date) by {
          forall p | p in puzzles
            ensures LexLe(p.date, sorted[0].date)
          {
            assert p in multiset(sorted);
            var k :| 0 <= k < |sorted| && sorted[k] == p;
            if k == 0 { LexLeReflexive(p.date); }
          }
        }
        Ok(Some(sorted[0]))
    else
      Ok(FindByDate(puzzles, date))
  }

  /** The position of the first puzzle carrying the greatest date. */
  function FirstLatestIndex(puzzles: seq<Puzzle>): (k: nat)
    requires |puzzles| > 0
    ensures k < |puzzles|
    ensures forall j :: 0 <= j < |puzzles| ==> LexLe(puzzles[j].date, puzzles[k].date)
    ensures forall j :: 0 <= j < k ==> puzzles[j].date != puzzles[k].date
    decreases |puzzles|
  {
    if |puzzles| == 1 then
      LexLeReflexive(puzzles[0].date);
      0
    else
      var k := FirstLatestIndex(puzzles[1..]) + 1;
      assert forall j :: 1 <= j < |puzzles| ==> LexLe(puzzles[j].date, puzzles[k].date) by {
        forall j | 1 <= j < |puzzles|
          ensures LexLe(puzzles[j].date, puzzles[k].date)
        {
          assert puzzles[j] == puzzles[1..][j - 1];
        }
      }
      if LexLe(puzzles[k].date, puzzles[0].date) then
        LexLeReflexive(puzzles[0].date);
        forall j | 1 <= j < |puzzles|
          ensures LexLe(puzzles[j].date, puzzles[0].date)
        {
          LexLeTransitive(puzzles[j].date, puzzles[k].date, puzzles[0].date);
        }
        0
      else
        LexLeTotal(puzzles[k].date, puzzles[0].date);
        LexLeReflexive(puzzles[0].date);
        assert forall j :: 1 <= j < k ==> puzzles[j].date != puzzles[k].date by {
          forall j | 1 <= j < k
            ensures puzzles[j].date != puzzles[k].date
          {
            assert puzzles[j] == puzzles[1..][j - 1];
          }
        }
        k
  }

  /** Because the sort is stable, `"latest"` yields the FIRST puzzle in file
      order among those with the greatest date. */
  lemma {:induction false} LatestIsFirstNewest(puzzles: seq<Puzzle>)
    requires |puzzles| > 0
    ensures GetPuzzleByDate(puzzles, Latest) == Ok(Some(puzzles[FirstLatestIndex(puzzles)]))
    decreases |puzzles|
  {
    SortHeadIsFirstNewest(puzzles);
  }

  lemma {:induction false} SortHeadIsFirstNewest(puzzles: seq<Puzzle>)
    requires |puzzles| > 0
    ensures SortNewestFirst(puzzles)[0] == puzzles[FirstLatestIndex(puzzles)]
    decreases |puzzles|
  {
    if |puzzles| > 1 {
      SortHeadIsFirstNewest(puzzles[1..]);
    }
  }

  // ---------------------------------------------------------------------
  // Display record

  /** All answer members, concatenated in answer order. */
  function AllMembers(answers: seq<Answer>): (words: seq<string>)
    ensures forall w :: w in words <==> exists i :: 0 <= i < |answers| && w in answers[i].members
    decreases |answers|
  {
    if |answers| == 0 then []
    else
      var rest := AllMembers(answers[1..]);
      forall w | w in rest
        ensures exists i :: 0 <= i < |answers| && w in answers[i].members
      {
        var i :| 0 <= i < |answers[1..]| && w in answers[1..][i].members;
        assert answers[i + 1] == answers[1..][i];
      }
      forall w, i | 1 <= i < |answers| && w in answers[i].members
        ensures w in rest
      {
        assert answers[1..][i - 1] == answers[i];
      }
      answers[0].members + rest
  }

  /** `random.shuffle`: the Fisher-Yates walk from the last position down to
      position 1, swapping position `i` with a position `j <= i`. The `k`-th
      value the generator would draw is `draws[k]` reduced into `[0, i]`;
      missing draws read as 0. */
  method Shuffle(xs: seq<string>, draws: seq<nat>) returns (ys: seq<string>)
    ensures multiset(ys) == multiset(xs)
    ensures |ys| == |xs|
  {
    ys := xs;
    var i := |xs| - 1;
    var k := 0;
    while i >= 1
      invariant i < |xs|
      invariant |ys| == |xs|
      invariant multiset(ys) == multiset(xs)
      decreases i
    {
      var draw := if k < |draws| then draws[k] else 0;
      var j := draw % (i + 1);
      var a, b := ys[i], ys[j];
      ghost var before := ys;
      ys := ys[i := b][j := a];
      SwapKeepsMultiset(before, i, j);
      i := i - 1;
      k := k + 1;
    }
  }

  lemma SwapKeepsMultiset(s: seq<string>, i: nat, j: nat)
    requires i < |s| && j < |s|
    ensures multiset(s[i := s[j]][j := s[i]]) == multiset(s)
  {
    if i != j {
      var t := s[i := s[j]];
      assert multiset(t) == multiset(s) - multiset{s[i]} + multiset{s[j]};
      assert multiset(t[j := s[i]]) == multiset(t) - multiset{t[j]} + multiset{s[i]};
    }
  }

  /** `format_puzzle_for_display`: the words are a permutation of all answer
      members; id, date and answers are copied; the title names the id. */
  method FormatPuzzleForDisplay(puzzle: Puzzle, draws: seq<nat>) returns (d: Display)
    ensures multiset(d.words) == multiset(AllMembers(puzzle.answers))
    ensures d.id == puzzle.id && d.date == puzzle.date && d.answers == puzzle.answers
    ensures d.title == "Connections Puzzle #" + Decimal.NatToString(puzzle.id)
  {
    var words := Shuffle(AllMembers(puzzle.answers), draws);
    d := Display(puzzle.id, puzzle.date,
                 "Connections Puzzle #" + Decimal.NatToString(puzzle.id),
                 words, puzzle.answers);
  }

  // ---------------------------------------------------------------------
  // Hints

  predicate KnownLevel(level: string)
  {
    level == "beginner" || level == "intermediate" || level == "advanced"
  }

  /** `generate_hint`. `pick` stands for the generator's choice of answer
      group; the known levels raise `IndexError` when that choice (or the
      word references their phrasings make) meets an empty list. */
  function GenerateHint(puzzle: Puzzle, level: string, pick: nat): (r: Result<Hint, PyError>)
    ensures !KnownLevel(level) <==> r == Ok(Fallback(UnknownLevelReply))
    ensures r.Err? <==> (KnownLevel(level) &&
                         (|puzzle.answers| == 0
                          || (level == "intermediate" && |puzzle.answers[pick % |puzzle.answers|].members| < 2)
                          || (level == "advanced" && |puzzle.answers[pick % |puzzle.answers|].members| == 0)))
    ensures r.Ok? && r.value.Templated? ==>
      r.value.level == level && r.value.about in puzzle.answers
  {
    if !KnownLevel(level) then Ok(Fallback(UnknownLevelReply))
    else if |puzzle.answers| == 0 then Err(IndexError)
    else
      var answer := puzzle.answers[pick % |puzzle.answers|];
      if level == "intermediate" && |answer.members| < 2 then Err(IndexError)
      else if level == "advanced" && |answer.members| == 0 then Err(IndexError)
      else Ok(Templated(level, answer))
  }

  // ---------------------------------------------------------------------
  // Checking a submission

  function SetOf(group: seq<string>): (s: set<string>)
    ensures forall w :: w in s <==> w in group
    ensures |group| == 0 <==> s == {}
  {
    var s := set w | w in group;
    assert |group| > 0 ==> group[0] in s;
    s
  }

  /** The answer groups, each as a set of words. */
  function AnswerSets(answers: seq<Answer>): (r: seq<set<string>>)
    ensures |r| == |answers|
    ensures forall i :: 0 <= i < |answers| ==> r[i] == SetOf(answers[i].members)
  {
    seq(|answers|, i requires 0 <= i < |answers| => SetOf(answers[i].members))
  }

  /** A submitted group earns a point when it is non-empty and, as a set,
      equals some answer group. */
  predicate Matches(group: seq<string>, correct: seq<set<string>>)
  {
    |group| > 0 && SetOf(group) in correct
  }

  function CountMatches(submission: seq<seq<string>>, correct: seq<set<string>>): (n: nat)
    ensures n <= |submission|
    ensures |correct| == 0 ==> n == 0
    decreases |submission|
  {
    if |submission| == 0 then 0
    else (if Matches(submission[0], correct) then 1 else 0)
         + CountMatches(submission[1..], correct)
  }

  /** `check_submission`: the number of matching groups (repeats included)
      must equal the number of answer groups. */
  function CheckSubmission(submission: seq<seq<string>>, puzzle: Puzzle): (ok: bool)
    ensures |submission| < |puzzle.answers| ==> !ok
    ensures |puzzle.answers| == 0 ==> ok
  {
    CountMatches(submission, AnswerSets(puzzle.answers)) == |puzzle.answers|
  }

  lemma {:induction false} CountMatchesAppend(a: seq<seq<string>>, b: seq<seq<string>>, correct: seq<set<string>>)
    ensures CountMatches(a + b, correct) == CountMatches(a, correct) + CountMatches(b, correct)
    decreases |a|
  {
    if |a| > 0 {
      assert (a + b)[0] == a[0];
      assert (a + b)[1..] == a[1..] + b;
      CountMatchesAppend(a[1..], b, correct);
    } else {
      assert a + b == b;
    }
  }

  lemma {:induction false} CountMatchesPermutation(a: seq<seq<string>>, b: seq<seq<string>>, correct: seq<set<string>>)
    requires multiset(a) == multiset(b)
    ensures CountMatches(a, correct) == CountMatches(b, correct)
    decreases |a|
  {
    if |a| > 0 {
      assert a[0] in multiset(b);
      var k :| 0 <= k < |b| && b[k] == a[0];
      var rest := b[..k] + b[k + 1..];
      RemoveAtKeepsRest(a, b, k);
      CountMatchesPermutation(a[1..], rest, correct);
      CountMatchesRemoveAt(b, k, correct);
      assert a == [a[0]] + a[1..];
    }
  }

  lemma RemoveAtKeepsRest<T>(a: seq<T>, b: seq<T>, k: nat)
    requires multiset(a) == multiset(b) && |a| > 0 && k < |b| && b[k] == a[0]
    ensures multiset(a[1..]) == multiset(b[..k] + b[k + 1..])
  {
    assert b == b[..k] + [b[k]] + b[k + 1..];
    assert a == [a[0]] + a[1..];
    assert multiset(b) == multiset(b[..k]) + multiset{b[k]} + multiset(b[k + 1..]);
    assert multiset(a) == multiset{a[0]} + multiset(a[1..]);
    assert multiset(b[..k] + b[k + 1..]) == multiset(b[..k]) + multiset(b[k + 1..]);
    assert multiset(a[1..]) == multiset(a) - multiset{a[0]};
  }

  lemma CountMatchesRemoveAt(b: seq<seq<string>>, k: nat, correct: seq<set<string>>)
    requires k < |b|
    ensures CountMatches(b, correct)
            == CountMatches([b[k]], correct) + CountMatches(b[..k] + b[k + 1..], correct)
  {
    assert b == b[..k] + [b[k]] + b[k + 1..];
    CountMatchesAppend(b[..k] + [b[k]], b[k + 1..], correct);
    CountMatchesAppend(b[..k], [b[k]], correct);
    CountMatchesAppend(b[..k], b[k + 1..], correct);
  }


  /** Reordering the submitted groups does not change the verdict. */
  lemma CheckIgnoresGroupOrder(s1: seq<seq<string>>, s2: seq<seq<string>>, puzzle: Puzzle)
    requires multiset(s1) == multiset(s2)
    ensures CheckSubmission(s1, puzzle) == CheckSubmission(s2, puzzle)
  {
    CountMatchesPermutation(s1, s2, AnswerSets(puzzle.answers));
  }

  /** Reordering (or repeating) words inside groups does not change the
      verdict: only each group's set of words matters. */
  lemma {:induction false} CheckIgnoresWordOrder(s1: seq<seq<string>>, s2: seq<seq<string>>, puzzle: Puzzle)
    requires |s1| == |s2|
    requires forall i :: 0 <= i < |s1| ==> SetOf(s1[i]) == SetOf(s2[i])
    ensures CheckSubmission(s1, puzzle) == CheckSubmission(s2, puzzle)
  {
    SameSetsSameCount(s1, s2, AnswerSets(puzzle.answers));
  }

  lemma {:induction false} SameSetsSameCount(s1: seq<seq<string>>, s2: seq<seq<string>>, correct: seq<set<string>>)
    requires |s1| == |s2|
    requires forall i :: 0 <= i < |s1| ==> SetOf(s1[i]) == SetOf(s2[i])
    ensures CountMatches(s1, correct) == CountMatches(s2, correct)
    decreases |s1|
  {
    if |s1| > 0 {
      SameSetsSameCount(s1[1..], s2[1..], correct);
    }
  }

  /** An empty group, wherever it stands, is discarded. */
  lemma CheckIgnoresEmptyGroups(before: seq<seq<string>>, after: seq<seq<string>>, puzzle: Puzzle)
    ensures CheckSubmission(before + [[]] + after, puzzle) == CheckSubmission(before + after, puzzle)
  {
    IgnoredGroup(before, [], after, AnswerSets(puzzle.answers));
  }

  /** A group that is not an answer neither helps nor blocks success. */
  lemma CheckIgnoresWrongGroups(before: seq<seq<string>>, wrong: seq<string>, after: seq<seq<string>>, puzzle: Puzzle)
    requires SetOf(wrong) !in AnswerSets(puzzle.answers)
    ensures CheckSubmission(before + [wrong] + after, puzzle) == CheckSubmission(before + after, puzzle)
  {
    IgnoredGroup(before, wrong, after, AnswerSets(puzzle.answers));
  }

  lemma IgnoredGroup(before: seq<seq<string>>, g: seq<string>, after: seq<seq<string>>, correct: seq<set<string>>)
    requires !Matches(g, correct)
    ensures CountMatches(before + [g] + after, correct) == CountMatches(before + after, correct)
  {
    CountMatchesAppend(before + [g], after, correct);
    CountMatchesAppend(before, [g], correct);
    CountMatchesAppend(before, after, correct);
  }

  /** The answer groups themselves, in any order, are accepted, provided no
      answer group is empty (an empty one is discarded from the submission). */
  lemma CheckAcceptsAnswers(submission: seq<seq<string>>, puzzle: Puzzle)
    requires forall i :: 0 <= i < |puzzle.answers| ==> |puzzle.answers[i].members| > 0
    requires multiset(submission) == multiset(Members(puzzle.answers))
    ensures CheckSubmission(submission, puzzle)
  {
    var correct := AnswerSets(puzzle.answers);
    CountMatchesPermutation(submission, Members(puzzle.answers), correct);
    AllMatch(Members(puzzle.answers), correct);
  }

  function Members(answers: seq<Answer>): (r: seq<seq<string>>)
    ensures |r| == |answers|
    ensures forall i :: 0 <= i < |answers| ==> r[i] == answers[i].members
  {
    seq(|answers|, i requires 0 <= i < |answers| => answers[i].members)
  }

  lemma {:induction false} AllMatch(groups: seq<seq<string>>, correct: seq<set<string>>)
    requires forall i :: 0 <= i < |groups| ==> Matches(groups[i], correct)
    ensures CountMatches(groups, correct) == |groups|
    decreases |groups|
  {
    if |groups| > 0 {
      AllMatch(groups[1..], correct);
    }
  }

  /** Repeats of one correct group each earn a point, so the first answer
      group submitted once per answer group is accepted. */
  lemma CheckCountsRepeats(puzzle: Puzzle)
    requires |puzzle.answers| > 0 && |puzzle.answers[0].members| > 0
    ensures CheckSubmission(seq(|puzzle.answers|, _ => puzzle.answers[0].members), puzzle)
  {
    var groups := seq(|puzzle.answers|, _ => puzzle.answers[0].members);
    AllMatch(groups, AnswerSets(puzzle.answers));
  }

  /** Nothing submitted fails whenever there is an answer group. */
  lemma CheckRejectsEmptySubmission(puzzle: Puzzle)
    requires |puzzle.answers| > 0
    ensures !CheckSubmission([], puzzle)
  {
  }

  /** With exactly one submitted group per answer group, acceptance means
      every submitted group is non-empty and equals some answer group. */
  lemma CheckSoundForFullSubmission(submission: seq<seq<string>>, puzzle: Puzzle)
    requires |submission| == |puzzle.answers|
    requires CheckSubmission(submission, puzzle)
    ensures forall i :: 0 <= i < |submission| ==>
      |submission[i]| > 0 && exists j :: 0 <= j < |puzzle.answers| && SetOf(submission[i]) == SetOf(puzzle.answers[j].members)
  {
    var correct := AnswerSets(puzzle.answers);
    FullCountAllMatch(submission, correct);
    forall i | 0 <= i < |submission|
      ensures exists j :: 0 <= j < |puzzle.answers| && SetOf(submission[i]) == SetOf(puzzle.answers[j].members)
    {
      assert Matches(submission[i], correct);
      var j :| 0 <= j < |correct| && correct[j] == SetOf(submission[i]);
    }
  }

  lemma {:induction false} FullCountAllMatch(groups: seq<seq<string>>, correct: seq<set<string>>)
    requires CountMatches(groups, correct) == |groups|
    ensures forall i :: 0 <= i < |groups| ==> Matches(groups[i], correct)
    decreases |groups|
  {
    if |groups| > 0 {
      FullCountAllMatch(groups[1..], correct);
      forall i | 1 <= i < |groups|
        ensures Matches(groups[i], correct)
      {
        assert groups[i] == groups[1..][i - 1];
      }
    }
  }

  // ---------------------------------------------------------------------
  // The check as evidently intended

  /** The distinct non-empty submitted groups, each as a set of words. */
  function SubmittedSets(submission: seq<seq<string>>): set<set<string>>
  {
    set i | 0 <= i < |submission| && |submission[i]| > 0 :: SetOf(submission[i])
  }

  /** Some non-empty submitted group has exactly these words. */
  predicate GroupSubmitted(submission: seq<seq<string>>, words: set<string>)
  {
    exists i :: 0 <= i < |submission| && |submission[i]| > 0 && SetOf(submission[i]) == words
  }

  /** Accepts exactly when the non-empty submitted groups, as sets, are the
      answer groups: each submitted group is an answer and each answer is
      submitted. */
  function CheckSubmissionCorrected(submission: seq<seq<string>>, puzzle: Puzzle): (ok: bool)
    ensures ok <==>
      (forall i :: 0 <= i < |submission| && |submission[i]| > 0 ==>
         SetOf(submission[i]) in AnswerSets(puzzle.answers))
      && (forall j :: 0 <= j < |puzzle.answers| ==>
         GroupSubmitted(submission, SetOf(puzzle.answers[j].members)))
  {
    CorrectedMeaning(submission, puzzle);
    SubmittedSets(submission) == Elems(AnswerSets(puzzle.answers))
  }

  lemma CorrectedMeaning(submission: seq<seq<string>>, puzzle: Puzzle)
    ensures SubmittedSets(submission) == Elems(AnswerSets(puzzle.answers)) <==>
      (forall i :: 0 <= i < |submission| && |submission[i]| > 0 ==>
         SetOf(submission[i]) in AnswerSets(puzzle.answers))
      && (forall j :: 0 <= j < |puzzle.answers| ==>
         GroupSubmitted(submission, SetOf(puzzle.answers[j].members)))
  {
    var submitted, answers := SubmittedSets(submission), Elems(AnswerSets(puzzle.answers));
    if submitted == answers {
      forall j | 0 <= j < |puzzle.answers|
        ensures GroupSubmitted(submission, SetOf(puzzle.answers[j].members))
      {
        assert SetOf(puzzle.answers[j].members) == AnswerSets(puzzle.answers)[j];
        assert SetOf(puzzle.answers[j].members) in submitted;
      }
      forall i | 0 <= i < |submission| && |submission[i]| > 0
        ensures SetOf(submission[i]) in AnswerSets(puzzle.answers)
      {
        assert SetOf(submission[i]) in submitted;
      }
    } else if forall i :: 0 <= i < |submission| && |submission[i]| > 0 ==>
                SetOf(submission[i]) in AnswerSets(puzzle.answers) {
      assert submitted <= answers;
      var x :| x in answers && x !in submitted;
      var j :| 0 <= j < |puzzle.answers| && AnswerSets(puzzle.answers)[j] == x;
      assert !GroupSubmitted(submission, SetOf(puzzle.answers[j].members));
    }
  }

  /** The check as written accepts one correct group submitted once per
      answer group, which the corrected check refuses. */
  lemma RepeatedGroupFoolsCheck(puzzle: Puzzle)
    requires |puzzle.answers| >= 2 && |puzzle.answers[0].members| > 0
    requires SetOf(puzzle.answers[0].members) != SetOf(puzzle.answers[1].members)
    ensures var repeated := seq(|puzzle.answers|, _ => puzzle.answers[0].members);
      CheckSubmission(repeated, puzzle) && !CheckSubmissionCorrected(repeated, puzzle)
  {
    CheckCountsRepeats(puzzle);
  }

  /** The check as written accepts four correct groups plus any number of
      wrong ones, which the corrected check refuses. */
  lemma ExtraGroupsFoolCheck(puzzle: Puzzle, wrong: seq<string>)
    requires forall i :: 0 <= i < |puzzle.answers| ==> |puzzle.answers[i].members| > 0
    requires |wrong| > 0 && SetOf(wrong) !in AnswerSets(puzzle.answers)
    ensures var padded := Members(puzzle.answers) + [wrong];
      CheckSubmission(padded, puzzle) && !CheckSubmissionCorrected(padded, puzzle)
  {
    var groups := Members(puzzle.answers);
    CheckAcceptsAnswers(groups, puzzle);
    CheckIgnoresWrongGroups(groups, wrong, [], puzzle);
    assert groups + [wrong] + [] == groups + [wrong];
    assert groups + [] == groups;
    assert (groups + [wrong])[|groups|] == wrong;
  }

  /** On what the client sends, one non-empty group per answer group with no
      two groups alike, and with the answer groups pairwise different, the
      check as written and the corrected check agree. */
  lemma CheckAgreesOnDistinctGroups(submission: seq<seq<string>>, puzzle: Puzzle)
    requires |submission| == |puzzle.answers|
    requires forall i :: 0 <= i < |submission| ==> |submission[i]| > 0
    requires Distinct(GroupSets(submission))
    requires Distinct(AnswerSets(puzzle.answers))
    ensures CheckSubmission(submission, puzzle) == CheckSubmissionCorrected(submission, puzzle)
  {
    var correct := AnswerSets(puzzle.answers);
    var submitted := SubmittedSets(submission);
    assert submitted == Elems(GroupSets(submission));
    DistinctCardinality(GroupSets(submission));
    DistinctCardinality(correct);
    if CheckSubmission(submission, puzzle) {
      FullCountAllMatch(submission, correct);
      assert submitted <= Elems(correct);
      SubsetSameSizeEqual(submitted, Elems(correct));
    }
    if CheckSubmissionCorrected(submission, puzzle) {
      AllMatch(submission, correct);
    }
  }

  function GroupSets(submission: seq<seq<string>>): (r: seq<set<string>>)
    ensures |r| == |submission|
    ensures forall i :: 0 <= i < |submission| ==> r[i] == SetOf(submission[i])
  {
    seq(|submission|, i requires 0 <= i < |submission| => SetOf(submission[i]))
  }
}

=== FILE: seqs.dfy ===
/** Facts about sequences without repeats and the sets of their elements. */
module Seqs {

  predicate Distinct<T(==)>(s: seq<T>)
  {
    forall i, j :: 0 <= i < j < |s| ==> s[i] != s[j]
  }

  function Elems<T>(s: seq<T>): set<T>
  {
    set x | x in s
  }

  /** A sequence without repeats has as many elements as its length. */
  lemma {:induction false} DistinctCardinality<T>(s: seq<T>)
    requires Distinct(s)
    ensures |Elems(s)| == |s|
    decreases |s|
  {
    if |s| > 0 {
      DistinctCardinality(s[1..]);
      assert Elems(s) == {s[0]} + Elems(s[1..]);
      assert s[0] !in Elems(s[1..]);
    } else {
      assert Elems(s) == {};
    }
  }

  lemma SubsetSameSizeEqual<T>(a: set<T>, b: set<T>)
    requires a <= b && |a| == |b|
    ensures a == b
  {
    assert b == a + (b - a);
    assert a !! (b - a);
    assert |b - a| == 0;
  }

  lemma PickFrom<T>(s: set<T>) returns (x: T)
    requires s != {}
    ensures x in s
  {
    x :| x in s;
  }

  /** Every element moved up by one. */
  function Shift(s: set<int>): set<int>
  {
    set j | j in s :: j + 1
  }

  lemma {:induction false} ShiftSize(s: set<int>)
    ensures |Shift(s)| == |s|
    decreases |s|
  {
    if s != {} {
      var x := PickFrom(s);
      var smaller := s - {x};
      ShiftSize(smaller);
      forall y | y in Shift(s)
        ensures y in Shift(smaller) + {x + 1}
      {
        assert y - 1 in s;
        if y != x + 1 {
          assert y - 1 in smaller;
        }
      }
      assert Shift(s) == Shift(smaller) + {x + 1};
      assert x + 1 !in Shift(smaller);
    } else {
      assert Shift(s) == {};
    }
  }

  /** Dropping the head keeps a sequence free of repeats. */
  lemma TailDistinct<T>(s: seq<T>)
    requires |s| > 0 && Distinct(s)
    ensures Distinct(s[1..])
  {
    forall i, j | 0 <= i < j < |s| - 1
      ensures s[1..][i] != s[1..][j]
    {
      assert s[1..][i] == s[i + 1] && s[1..][j] == s[j + 1];
    }
  }

}

=== FILE: string_order.dfy ===
/** Python's ordering of `str` values: lexicographic by code point, with a
    proper prefix ordered before its extensions. Dafny's own `<` on sequences
    is the prefix relation, so the order is defined here. */
module StringOrder {

  /** `a <= b` for Python strings. */
  predicate LexLe(a: string, b: string)
    decreases |a|
  {
    if |a| == 0 then true
    else if |b| == 0 then false
    else if a[0] != b[0] then a[0] < b[0]
    else LexLe(a[1..], b[1..])
  }

  lemma {:induction false} LexLeReflexive(a: string)
    ensures LexLe(a, a)
    decreases |a|
  {
    if |a| > 0 {
      LexLeReflexive(a[1..]);
    }
  }

  lemma {:induction false} LexLeAntisymmetric(a: string, b: string)
    requires LexLe(a, b) && LexLe(b, a)
    ensures a == b
    decreases |a|
  {
    if |a| > 0 {
      LexLeAntisymmetric(a[1..], b[1..]);
      assert a == [a[0]] + a[1..];
      assert b == [b[0]] + b[1..];
    }
  }

  lemma {:induction false} LexLeTransitive(a: string, b: string, c: string)
    requires LexLe(a, b) && LexLe(b, c)
    ensures LexLe(a, c)
    decreases |a|
  {
    if |a| > 0 && a[0] == b[0] && b[0] == c[0] {
      LexLeTransitive(a[1..], b[1..], c[1..]);
    }
  }

  lemma {:induction false} LexLeTotal(a: string, b: string)
    ensures LexLe(a, b) || LexLe(b, a)
    decreases |a|
  {
    if |a| > 0 && |b| > 0 && a[0] == b[0] {
      LexLeTotal(a[1..], b[1..]);
    }
  }
}
